=== FILE: README.md ===
# Wierszokleta, modelled in Dafny

Wierszokleta is a generator of Polish verse. It learns three things from a
corpus of poems:

- a backward bigram model, which maps every word to the multiset of words seen
  right before it inside one sentence;
- rhyme classes, built from the last words of nearby lines;
- a set of proper names.

It then writes verses. Each line is grown leftwards from its last word through
the bigram model until the line has the syllable count asked for. Lines that
share a symbol of the rhyme pattern must end in words of one rhyme class.

This project models that core in `wierszokleta.py` and proves what it
promises:

| file | module | what it models |
|---|---|---|
| `text.dfy` | `Text` | The character and splitting primitives the core uses. It has `removeCharacters`, `splitIntoSentences` (a split on any sentence separator that keeps empty pieces) and `str.split()`. It also approximates `splitlines`, and has `" ".join`, `lower` and `capitalize` over ASCII and the Polish letters. |
| `syllables.dfy` | `Syllables` | `numSyllables` / `numSyllablesOnList`. Fifteen non-overlapping `str.count` calls are proved equal to "vowel positions minus digraph positions", so the count is never negative. The count of a space-joined list is the sum over its words. |
| `rhymes.dfy` | `Rhymes` | `wordsRhyme`. `transitiveSymmetricAdd` is specified pointwise as a merge of two classes. `findRhymes` is a class `RhymeClasses` whose map of classes its methods update. |
| `bigrams.dfy` | `Bigrams` | `updateBeforeWords`. It is a class `BeforeWords` whose counters (multisets) grow by exactly the adjacent pairs of each sentence. |
| `propernames.dfy` | `ProperNames` | `findProperNames` is a class `ProperNameSets` holding the two sets it adds to. The file also has the corpus-wide filter that drops names also seen as ordinary words. |
| `generation.dfy` | `Generation` | `createLine` is a backtracking search with a depth bound, together with the set of completions it can find. The file also has `createLineWithLastWord`, and `createVerse` with its rhyme anchors, its candidate lines and its restarts. |

Random choices (`random.choice`, `random.sample`) are nondeterministic choices
(`:|`). Every contract holds for whatever is chosen. `createLine` and
`createVerse` have no bound of their own in `wierszokleta.py`: on an unlucky
corpus they recurse until Python raises `RecursionError`. So each takes a fuel
parameter: `depth` bounds the words a line may gain, and `restarts` bounds the
verse restarts. Running out of fuel gives `None`.

## Model

| member | source | states |
|---|---|---|
| Text.Lower | wierszokleta.py:71 | `str.lower()`: the result has the input's length, and each character is lowered through the case table (ASCII and the nine Polish letters). Text.LowerAppend states how it meets concatenation. |
| Text.Capitalize | wierszokleta.py:167 | `str.capitalize()`: the first character upper case, the rest lowered. Generation.LowerCapitalize states that lowering undoes it on a lower-case word. |
| Text.SplitOn | wierszokleta.py:68 | `re.split` on a character class: one piece more than there are separators. Text.SplitOnSpec, Text.SplitOnSeparator and Text.SplitOnNoSeparator state what the pieces are. |
| Text.SplitWords | wierszokleta.py:75 | `str.split()`. No contract of its own: Text.SplitWordsSpec and Text.SplitWordsJoin state its properties. |
| Text.SplitLines | wierszokleta.py:108 | `str.splitlines()`, as a split on every line-break character. No contract of its own: Text.SplitOnSpec states the properties of the split, and Generation.VerseTextLines states how it reads a verse text. |
| Text.RemoveCharacters | wierszokleta.py:60-64 | A character is in the result iff it is in the input and not among the characters removed. The result is the input filtered by that set, in order. |
| Text.StripTwice | wierszokleta.py:60-64 | Removing one set of characters and then another is the same as removing their union. So removing the characters one by one, as the loop does, is one filter. |
| Text.StripAppend | wierszokleta.py:60-64 | The character filter distributes over concatenation. |
| Text.StripNothing | wierszokleta.py:60-64 | A text that holds none of the removed characters is returned unchanged. |
| Text.SplitIntoSentences | wierszokleta.py:66-68 | There is one more sentence than there are separator characters, because empty pieces are kept as `re.split` keeps them. |
| Text.SplitOnSpec | wierszokleta.py:66-68 | No piece holds a separator. The pieces concatenated give the text without its separators. |
| Text.SplitOnSeparator | wierszokleta.py:66-68 | A separator always cuts: the pieces of `a + [c] + b` are those of `a` followed by those of `b`. |
| Text.SplitOnNoSeparator | wierszokleta.py:66-68 | A text with no separator is a single piece. |
| Text.SplitWordsSpec | wierszokleta.py:75 | `str.split()` gives words without whitespace. Concatenated, they are the text without its whitespace. |
| Text.SplitWordsJoin | wierszokleta.py:143-144 | Splitting the space-join of whitespace-free words gives back the same words. |
| Text.LowerAppend | wierszokleta.py:71 | Lower-casing distributes over concatenation. |
| Bigrams.AdjacentPairs | wierszokleta.py:73-78 | The pairs of a sentence are its consecutive words: one fewer than the words, and pair `i` is `(words[i], words[i+1])`. |
| Bigrams.BeforeWords.constructor | wierszokleta.py:289 | The counters start empty. |
| Bigrams.BeforeWords.UpdateBeforeWords | wierszokleta.py:70-78 | The new counters are the old ones plus one count of `p` under `w` for each adjacent pair `(p, w)` inside one sentence of the lower-cased text. |
| Bigrams.BeforeWords.CountSentence | wierszokleta.py:73-78 | The word loop over one sentence adds exactly that sentence's adjacent pairs to the counters. |
| Bigrams.UpdateCountsOccurrences | wierszokleta.py:70-78 | After the update, `beforeWords[w][p]` is its old value plus the number of occurrences of the pair `(p, w)` within sentences. `w` has a counter iff it had one before or ends some pair. |
| Bigrams.PredsInCountsOccurrences | wierszokleta.py:77 | The counter of `w` holds `p` exactly as many times as `(p, w)` occurs among the pairs. |
| Bigrams.SentencePairsSplitAtSeparator | wierszokleta.py:66-78 | No pair spans a sentence separator. The pairs of `a + [c] + b` are those of `a` followed by those of `b`. |
| Bigrams.OneSentence | wierszokleta.py:66-78 | For a text with no separator, the pairs counted are the adjacent pairs of its words. |
| Rhymes.Replace | wierszokleta.py:81-86 | `str.replace`, left to right without overlaps. No contract of its own: Rhymes.ReplaceKeepsChars and Rhymes.ReplaceRemovesChar state its properties. |
| Rhymes.Normalize | wierszokleta.py:81-86 | The three replacements "ó" to "u", "rz" to "ż", "ch" to "h". No contract of its own: Rhymes.NormalizeHasNoRoundedU and Rhymes.PlainRhyme state its properties. |
| Rhymes.WordsRhyme | wierszokleta.py:80-87 | `wordsRhyme`: the last three characters of the two normalised words agree. No contract of its own: Rhymes.WordsRhymeSymmetric, Rhymes.WordsRhymeTransitive, Rhymes.PlainRhyme, Rhymes.MorzeRhymesWithMoze and Rhymes.KotDoesNotRhymeWithPlot state its properties. |
| Rhymes.WordsRhymeSymmetric | wierszokleta.py:80-87 | `wordsRhyme(a, b) == wordsRhyme(b, a)` for all words. |
| Rhymes.WordsRhymeTransitive | wierszokleta.py:80-87 | Every word rhymes with itself. Two words rhyming with a third rhyme with each other. |
| Rhymes.PlainRhyme | wierszokleta.py:80-87 | For words without 'ó', 'r' and 'c', the replacements do nothing. Such words rhyme iff their last three characters agree. |
| Rhymes.ReplaceKeepsChars | wierszokleta.py:81-86 | `str.replace` introduces no character that is in neither the input nor the replacement. |
| Rhymes.ReplaceRemovesChar | wierszokleta.py:81 | Replacing a character by a text without it leaves none of it behind. |
| Rhymes.NormalizeHasNoRoundedU | wierszokleta.py:81-86 | After the three replacements no 'ó' is left. |
| Rhymes.MorzeRhymesWithMoze | wierszokleta.py:80-87 | "morze" rhymes with "może", because "rz" is read as "ż". |
| Rhymes.KotDoesNotRhymeWithPlot | wierszokleta.py:87 | "kot" does not rhyme with "płot": the last three characters differ. |
| Rhymes.MergeIsDeterministic | wierszokleta.py:89-104 | Two maps that are both the merge of the same two classes are equal, so the result of `transitiveSymmetricAdd` does not depend on the order in which its loops visit the set members. |
| Rhymes.MergeLinksOnlyTheTwoClasses | wierszokleta.py:89-104 | After a merge, `word2` is in the set of `word1` and vice versa. No set loses a member. The set of any word outside the two classes and the two words is unchanged. |
| Rhymes.MergePreservesRhymeRelation | wierszokleta.py:89-104 | Suppose the map is irreflexive, symmetric and transitive on distinct words, `word1 != word2`, and `word2` is not in the set of `word1` (the guard at line 119). Then the merged map is again all three. Each member of the union class maps to the union minus itself. |
| Rhymes.RhymeClasses.constructor | wierszokleta.py:288 | The rhyme map starts empty, so it is a rhyme relation and every class holds only rhyming words. |
| Rhymes.RhymeClasses.TransitiveSymmetricAdd | wierszokleta.py:89-104 | The new map is the pointwise merge of the two classes: it holds the keys read or written, and every class is extended as the two loops and the four final updates extend it. |
| Rhymes.LastWordsOf | wierszokleta.py:109-114 | The loop collects the last word of every non-empty line, in line order. |
| Rhymes.RhymeClasses.FindRhymes | wierszokleta.py:106-120 | Take every pair of distinct, rhyming last words of non-empty lines at most 3 lines apart. The later word ends up in the set of the earlier one. When the map was a rhyme relation, the reverse link holds too and the map stays a rhyme relation. No existing entry is removed. When every class held only words rhyming with its key, it still does: no link joins two words that do not rhyme. When the map was a rhyme relation, only the last words and the members of their old classes change: every other word keeps its class, and whether it is a key. |
| Rhymes.MergeKeepsRhymes | wierszokleta.py:89-104 | Merging the classes of two rhyming words (the guard at line 119) keeps every class made of words rhyming with its key. |
| Rhymes.TouchedSpec | wierszokleta.py:109-120 | Every last word of the text is among the touched words (the last words and their old classes). In a rhyme relation, the class of a touched word holds only touched words. |
| Rhymes.MergeInside | wierszokleta.py:89-104 | Merging the classes of two words of a set closed under classes keeps the set closed and leaves every word outside it, and its key, unchanged. |
| ProperNames.CollectFirstWords | wierszokleta.py:124-135 | The set built is exactly the first words of the non-empty pieces, for sentences and for lines alike. |
| ProperNames.FirstWordsSpec | wierszokleta.py:124-128 | A word is collected iff it is the first word of some non-empty piece. |
| ProperNames.ProperNameSets.constructor | wierszokleta.py:290-291 | Both sets start empty. |
| ProperNames.ProperNameSets.FindProperNames | wierszokleta.py:122-141 | The names and the ordinary words grow by exactly the names and the ordinary words found in the text. |
| ProperNames.ProperNameSets.AddWords | wierszokleta.py:136-141 | The word loop adds the capitalised words that open no line and no sentence to the names. It adds the lower-case-initial words to the ordinary words. |
| ProperNames.ProperNamesInSpec | wierszokleta.py:137-139 | A word is a proper name of the text iff it is a word of the cleaned text, its first letter is upper case, and it is the first word of no line and no sentence. |
| ProperNames.LowercaseOfSpec | wierszokleta.py:140-141 | A word is an ordinary word iff it is a word of the text whose first letter is lower case. |
| ProperNames.CaseIsExclusive | wierszokleta.py:138-140 | No letter counts as both upper and lower case. |
| ProperNames.NamesAndOrdinaryWordsAreDisjoint | wierszokleta.py:136-141 | One text never makes the same word both a proper name and an ordinary word. |
| ProperNames.FilterProperNames | wierszokleta.py:325-330 | A name is kept iff it was a candidate and its lower-case form was never seen as an ordinary word. |
| Syllables.Count | wierszokleta.py:147-161 | `str.count`, left to right without overlaps. No contract of its own: Syllables.CountChar and Syllables.CountTwoDistinct state what it counts. |
| Syllables.NumSyllables | wierszokleta.py:146-162 | `numSyllables`: the nine vowel counts added, the six digraph counts subtracted. No contract of its own: Syllables.NumSyllablesCounts, Syllables.NumSyllablesNonNegative and Syllables.NumSyllablesAcrossSpace state its properties. |
| Syllables.NumSyllablesOnList | wierszokleta.py:143-144 | `numSyllablesOnList`: the count of the words joined by spaces. No contract of its own: Syllables.NumSyllablesOnListIsSum and Syllables.SyllablesOfSuffix state its properties. |
| Syllables.NumSyllablesCounts | wierszokleta.py:146-162 | The fifteen `str.count` calls add up to the number of vowel positions minus the number of digraph positions. |
| Syllables.CountChar | wierszokleta.py:147-155 | Counting one letter with `str.count` counts the positions holding it. |
| Syllables.CountTwoDistinct | wierszokleta.py:156-161 | A two-letter pattern of distinct letters cannot overlap itself. So the non-overlapping `str.count` equals the number of positions where it starts. |
| Syllables.DigraphsStartAtVowels | wierszokleta.py:156-161 | Every digraph starts at a vowel, so there are never more digraphs than vowels. |
| Syllables.NumSyllablesNonNegative | wierszokleta.py:146-162 | The syllable count is never negative. |
| Syllables.KotHasOneSyllable | wierszokleta.py:146-162 | "kot" has 1 syllable. |
| Syllables.MamaHasTwoSyllables | wierszokleta.py:146-162 | "mama" has 2 syllables. |
| Syllables.MiastoHasTwoSyllables | wierszokleta.py:146-162 | "miasto" has 2 syllables: three vowels, less the digraph "ia". |
| Syllables.NumSyllablesAcrossSpace | wierszokleta.py:143-162 | No digraph spans a space, so the syllables of `a + " " + b` are those of `a` plus those of `b`. |
| Syllables.NumSyllablesOnListIsSum | wierszokleta.py:143-144 | The syllables of a space-joined list are the sum of the syllables of its words. |
| Syllables.SyllablesOfSuffix | wierszokleta.py:143-144 | Dropping words from the front of a line never raises its syllable count. |
| Generation.CreateLine | wierszokleta.py:164-181 | A line is returned iff the search tree cut at `depth` holds a completion. A returned line is the capitalised completion. The completion has exactly the target syllables and ends with the seed line. Each word of the completion was seen right before the next one. Every shorter stage was still below the target. The result is `None` when the seed already has too many syllables (169), and when it is short and its first word has no predecessor (171-172). |
| Generation.CompletionFound | wierszokleta.py:173-180 | Any chain completion adding at most `depth` words lies in the search tree, so the search finds one. |
| Generation.CompletionExists | wierszokleta.py:173-180 | Whatever the search tree admits is a real chain completion adding at most `depth` words. |
| Generation.CompletesBack | wierszokleta.py:171-180 | A completion of a line that is not yet exact starts with a predecessor of the line's first word, and completes the line extended by it. |
| Generation.CreateLineWithLastWord | wierszokleta.py:183-184 | A line is returned iff one can be completed from the last word. The line ends in that word, has the target syllables before capitalisation, and is a chain of the bigram model. |
| Generation.FindRhymingLine | wierszokleta.py:189-195 | The anchor found is the nearest earlier line with the same symbol. No anchor means the line opens its symbol. |
| Generation.NearestSameUnique | wierszokleta.py:191-195 | A line has at most one nearest earlier line with its symbol. |
| Generation.AnchorCases | wierszokleta.py:191-195 | A line opens its symbol iff it has no nearest earlier line with that symbol. |
| Generation.CollectLines | wierszokleta.py:197-205 | Every collected line fits the syllable target, is a bigram chain and ends in one of the given last words. Every given word from which a line can be completed ends some collected line. |
| Generation.SubsetOfSize | wierszokleta.py:203 | A set of at least 10 keys has a subset of exactly 10, so the sample can be drawn. |
| Generation.ExtendsKeepsClasses | wierszokleta.py:199 | Reading an absent key of the default dictionary changes no rhyme class. |
| Generation.LineCandidates | wierszokleta.py:189-205 | If the line has an anchor, the last words tried are the anchor line's rhyme class. Otherwise they are 10 rhyme keys. Every candidate is a fitting chain line ending in one of those words. There is no candidate iff no line can be completed from any of them. |
| Generation.JoinVerse | wierszokleta.py:215-218 | The text built is the verse text: each line space-joined and ended by a newline. |
| Generation.VerseTextLines | wierszokleta.py:215-220 | For words without line breaks, the verse text splits back into its lines as space-joined strings. The model's split on every line break adds one empty piece after the final newline; `str.splitlines` yields none. |
| Generation.VersePass | wierszokleta.py:189-213 | One pass over the pattern either completes the verse, every line satisfying the verse conditions below, or stops at a line none of whose tried last words (the anchor's rhyme class, or 10 rhyme keys) can be completed to a line. |
| Generation.StuckAt | wierszokleta.py:197-211 | A line without candidates stays stuck when the rhyme map later gains empty entries: the classes tried are read the same way. |
| Generation.AfterRestart | wierszokleta.py:211 | A restart after a stuck pass keeps what the later passes established, read against the original rhyme map: a found verse still satisfies the verse conditions, and a failed search is the stuck pass followed by the later stuck passes. |
| Generation.CreateVerse | wierszokleta.py:186-220 | A returned verse has one line per pattern symbol, and line `i` has `syllablePattern[i]` syllables before capitalisation. Each line is a bigram chain. A line with an earlier line of its symbol has, before capitalisation, a last word in the rhyme class of the nearest such line's last word. A line opening its symbol has, before capitalisation, a rhyme key as its last word. The rhyme map only gains empty entries for keys read. `None` means that each of the `restarts + 1` passes reached a line where no last word tried could be completed. |
| Generation.LowerCapitalize | wierszokleta.py:167 | Lower-casing a capitalised lower-case word gives the word back. |
| Generation.CapitalisedLineLosesSyllable | wierszokleta.py:164-168 | The chain "i kot" meets the target 2, but the line returned, "I kot", counts 1 syllable: the capital "I" is not counted. |
| Generation.CaseBlindCountKeepsTarget | wierszokleta.py:164-168 | A count that lower-cases first gives a capitalised line of lower-case words the syllables of the chain it came from. |

## Left out

- `createPoem` (wierszokleta.py:222-232) is not part of this model. It reads module globals, names a parameter `rymePattern` but uses `rhymePattern`, and its core step is a regular-expression whole-word substitution.
- File reading and corpus clean-up (wierszokleta.py:37-58), JSON saving and loading (wierszokleta.py:234-285), and the directory walk and flags of `getAssets` are left out. These are file-system and regular-expression I/O. The command line (wierszokleta.py:336 onward) is left out too. Only the filter at wierszokleta.py:325-330 is modelled.
- The random number generator is replaced by nondeterministic choice. No distribution over lines or verses is modelled.
- Generation.CreateLine: `createLine` recurses without bound (wierszokleta.py:176, 180). A cycle of zero-syllable words makes it recurse until Python's recursion limit raises `RecursionError`. Nothing catches it, neither `createVerse` (lines 200, 204) nor `createPoem`, so the whole generation aborts. The model instead cuts the search at `depth` added words and returns `None`, and `createVerse` moves on to the next candidate word.
- Generation.CreateVerse: `createVerse` restarts the verse by calling itself (line 211), with no limit of its own. On a corpus where every pass gets stuck, Python's recursion limit raises `RecursionError` after about a thousand nested restarts. Nothing catches it, so the whole generation aborts. The model allows `restarts` restarts and then returns `None`, which states that `restarts + 1` passes got stuck.
- Generation.CreateVerse, Generation.VersePass and Generation.LineCandidates require `|syllablePattern| >= |rhymePattern|`. With a shorter syllable pattern, `createVerse` raises `IndexError` at `syllablePattern[lineNumber]` (lines 200, 204) as soon as a line past its end tries a candidate.
- Generation.CreateLine works on values and returns the capitalised copy. `createLine` writes `line[0]` in place, but that list is always a fresh one built by its caller, so no other reference sees the change.
- Generation.LineCandidates requires at least 10 rhyme keys for every line, including lines with an anchor, although only `random.sample(..., 10)` (line 203) needs them. Generation.CreateVerse requires them whenever the pattern is non-empty. Its calls meet this, because line 0 never has an anchor and always samples.
- Rhymes.RhymeClasses.FindRhymes: does not state that the new classes are exactly the equivalence closure of the old classes and the nearby rhyming pairs. It states that every nearby rhyming pair is linked, that every link joins rhyming words, and that only the last words and their old classes change.
- Generation.CreateVerse models the rhyme lookup as written. In a one-word line the last word is the capitalised one, so later lines that rhyme with it look up the capitalised form.
- Generation reads the bigram counters only through their keys (the words with a non-zero count). The counts themselves do not affect generation.
- Reading `beforeWords[w]` inserts an empty counter into the default dictionary. The model does not track that insertion, because it changes no lookup result. The same insertion on `rhymes` is tracked (`Extends`).
- Case functions (`lower`, `capitalize`, `isupper`, `islower`) cover ASCII and the nine Polish letters only. Other Unicode letters keep their case.
- `splitlines` is modelled as a split on every line-break character. This differs from Python only in the empty pieces it yields (for "\r\n" and a trailing break). Every use in the core skips empty lines.
- The `rhymes` and `beforeWords` maps are built from text, not loaded from JSON files. `loadBeforeWords` turns the counters into sets; that is part of loading and is left out.

## Findings

| source | as written | input that shows it | evidently intended | confidence | as-written member | corrected member |
|---|---|---|---|---|---|---|
| wierszokleta.py:164-168 | `createLine` checks the syllable count of the chain and then capitalises its first word. `numSyllables` counts only lower-case vowels, so the capitalised line can count fewer syllables than the target. | The chain ["i", "kot"] for the target 2: it counts 2, the line returned is "I kot", and that counts 1. | The line returned has the target count under a count that ignores case. | not executed | Generation.CapitalisedLineLosesSyllable | Generation.CaseBlindCountKeepsTarget (with Syllables.NumSyllablesIgnoringCase) |

=== FILE: bigrams.dfy ===
/** The backward bigram model (wierszokleta.py:70-78): for every word, the
    multiset of the words seen immediately before it inside one sentence. */
module Bigrams {
  import opened Text

  /** A word seen right before another one: `(previous, word)`. */
  type Pair = (Word, Word)

  /** The adjacent pairs of a sequence of words, left to right. */
  function AdjacentPairs(words: seq<Word>): (pairs: seq<Pair>)
    ensures |pairs| == if |words| < 2 then 0 else |words| - 1
    ensures forall i :: 0 <= i < |pairs| ==> pairs[i] == (words[i], words[i + 1])
  {
    if |words| < 2 then []
    else AdjacentPairs(words[..|words| - 1]) + [(words[|words| - 2], words[|words| - 1])]
  }

  /** The adjacent pairs of each sentence's words, sentence after sentence. */
  function PairsOfSentences(sentences: seq<seq<Word>>): seq<Pair>
  {
    if sentences == [] then []
    else PairsOfSentences(sentences[..|sentences| - 1]) + AdjacentPairs(sentences[|sentences| - 1])
  }

  /** The pairs `updateBeforeWords` counts: those inside one sentence of the
      lower-cased text. */
  function SentencePairs(text: string): seq<Pair>
  {
    PairsOfSentences(WordLists(SplitIntoSentences(Lower(text))))
  }

  /** The words seen before `w` in `pairs`, with multiplicity. */
  function PredsIn(pairs: seq<Pair>, w: Word): multiset<Word>
  {
    if pairs == [] then multiset{}
    else
      var last := pairs[|pairs| - 1];
      PredsIn(pairs[..|pairs| - 1], w) + (if last.1 == w then multiset{last.0} else multiset{})
  }

  /** The words that have a predecessor in `pairs`. */
  function Seconds(pairs: seq<Pair>): set<Word>
  {
    if pairs == [] then {} else Seconds(pairs[..|pairs| - 1]) + {pairs[|pairs| - 1].1}
  }

  /** The counter of `w`: a default dictionary of counters reads an absent key as empty. */
  function Bag(m: map<Word, multiset<Word>>, w: Word): multiset<Word>
  {
    if w in m then m[w] else multiset{}
  }

  /** `c` is `m` with every pair of `pairs` counted. */
  ghost predicate Counted(m: map<Word, multiset<Word>>, c: map<Word, multiset<Word>>, pairs: seq<Pair>)
  {
    && c.Keys == m.Keys + Seconds(pairs)
    && forall w :: Bag(c, w) == Bag(m, w) + PredsIn(pairs, w)
  }

  // ---------------------------------------------------------------------------
  // What the counts mean.

  /** The multiplicity of `p` before `w` is the number of occurrences of the
      pair `(p, w)`. */
  lemma {:induction false} PredsInCountsOccurrences(pairs: seq<Pair>, p: Word, w: Word)
    ensures PredsIn(pairs, w)[p] == multiset(pairs)[(p, w)]
  {
    if pairs != [] {
      var init := pairs[..|pairs| - 1];
      PredsInCountsOccurrences(init, p, w);
      assert pairs == init + [pairs[|pairs| - 1]];
    }
  }

  /** A word has a predecessor exactly when it is the second word of some pair. */
  lemma {:induction false} SecondsAreTheSecondWords(pairs: seq<Pair>, w: Word)
    ensures w in Seconds(pairs) <==> exists i :: 0 <= i < |pairs| && pairs[i].1 == w
  {
    if pairs != [] {
      var init := pairs[..|pairs| - 1];
      SecondsAreTheSecondWords(init, w);
      if w in Seconds(init) {
        var i :| 0 <= i < |init| && init[i].1 == w;
        assert pairs[i] == init[i];
      }
      if exists i :: 0 <= i < |pairs| && pairs[i].1 == w {
        var i :| 0 <= i < |pairs| && pairs[i].1 == w;
        if i < |init| {
          assert init[i] == pairs[i];
        }
      }
    }
  }

  lemma {:induction false} PredsInAppend(a: seq<Pair>, b: seq<Pair>, w: Word)
    ensures PredsIn(a + b, w) == PredsIn(a, w) + PredsIn(b, w)
    decreases |b|
  {
    if b == [] {
      assert a + b == a;
    } else {
      assert (a + b)[..|a + b| - 1] == a + b[..|b| - 1];
      PredsInAppend(a, b[..|b| - 1], w);
    }
  }

  lemma {:induction false} PairsOfSentencesAppend(a: seq<seq<Word>>, b: seq<seq<Word>>)
    ensures PairsOfSentences(a + b) == PairsOfSentences(a) + PairsOfSentences(b)
    decreases |b|
  {
    if b == [] {
      assert a + b == a;
    } else {
      var init, last := b[..|b| - 1], b[|b| - 1];
      assert a + b == (a + init) + [last];
      assert (a + init + [last])[..|a + init|] == a + init;
      PairsOfSentencesAppend(a, init);
      calc {
        PairsOfSentences(a + b);
        PairsOfSentences(a + init) + AdjacentPairs(last);
        PairsOfSentences(a) + PairsOfSentences(init) + AdjacentPairs(last);
      }
    }
  }

  /** Sentence separators are caseless, so lower-casing keeps them in place. */
  lemma LowerAroundSeparator(a: string, c: char, b: string)
    requires c in SentenceSeparatorSet
    ensures Lower(a + [c] + b) == Lower(a) + [c] + Lower(b)
  {
    LowerAppend(a + [c], b);
    LowerAppend(a, [c]);
    assert !IsUpper(c);
    assert Lower([c]) == [c];
  }

  /** No pair spans a sentence separator: the pairs of a text cut at a
      separator are those of the two sides. */
  lemma SentencePairsSplitAtSeparator(a: string, c: char, b: string)
    requires c in SentenceSeparatorSet
    ensures SentencePairs(a + [c] + b) == SentencePairs(a) + SentencePairs(b)
  {
    LowerAroundSeparator(a, c, b);
    SplitOnSeparator(Lower(a), c, Lower(b), SentenceSeparatorSet);
    WordListsAppend(SplitIntoSentences(Lower(a)), SplitIntoSentences(Lower(b)));
    PairsOfSentencesAppend(WordLists(SplitIntoSentences(Lower(a))), WordLists(SplitIntoSentences(Lower(b))));
  }

  /** In a sentence without separators, the words seen before `w` are those
      of the sentence's adjacent pairs. */
  lemma OneSentence(s: string)
    requires Avoids(s, SentenceSeparatorSet)
    ensures PairsOfSentences(WordLists(SplitIntoSentences(s))) == AdjacentPairs(SplitWords(s))
  {
    SplitOnNoSeparator(s, SentenceSeparatorSet);
    assert SplitIntoSentences(s) == [s];
    assert [s][..0] == [];
    WordListsSpec([s], 0);
    assert WordLists([s]) == [SplitWords(s)];
    assert [SplitWords(s)][..0] == [];
  }

  // ---------------------------------------------------------------------------
  // The update, step by step.

  lemma PairsSnoc(pairs: seq<Pair>, p: Word, w: Word)
    ensures Seconds(pairs + [(p, w)]) == Seconds(pairs) + {w}
    ensures forall x :: PredsIn(pairs + [(p, w)], x) == PredsIn(pairs, x) + (if x == w then multiset{p} else multiset{})
  {
    assert (pairs + [(p, w)])[..|pairs|] == pairs;
  }

  lemma BagUpdate(c: map<Word, multiset<Word>>, w: Word, extra: multiset<Word>)
    ensures var c' := c[w := Bag(c, w) + extra];
      forall x :: Bag(c', x) == Bag(c, x) + (if x == w then extra else multiset{})
  {
  }

  lemma UnionAssoc(a: multiset<Word>, b: multiset<Word>, c: multiset<Word>)
    ensures a + b + c == a + (b + c)
  {
  }

  /** Counting one more pair `(p, w)` adds `p` to the counter of `w`. */
  lemma CountOne(m: map<Word, multiset<Word>>, c: map<Word, multiset<Word>>, pairs: seq<Pair>, p: Word, w: Word)
    requires Counted(m, c, pairs)
    ensures Counted(m, c[w := Bag(c, w) + multiset{p}], pairs + [(p, w)])
  {
    PairsSnoc(pairs, p, w);
    BagUpdate(c, w, multiset{p});
    var c' := c[w := Bag(c, w) + multiset{p}];
    forall x ensures Bag(c', x) == Bag(m, x) + PredsIn(pairs + [(p, w)], x) {
      assert Bag(c, x) == Bag(m, x) + PredsIn(pairs, x);
      UnionAssoc(Bag(m, x), PredsIn(pairs, x), if x == w then multiset{p} else multiset{});
    }
  }

  /** `Counted` depends on the pairs, not on how they are written. */
  lemma CountedSame(m: map<Word, multiset<Word>>, c: map<Word, multiset<Word>>, pairs: seq<Pair>, pairs': seq<Pair>)
    requires Counted(m, c, pairs) && pairs == pairs'
    ensures Counted(m, c, pairs')
  {
  }

  /** The step of wierszokleta.py:76-77 at word `k > 0` of a sentence: the
      previous word is counted before word `k`. */
  lemma CountNextWord(m: map<Word, multiset<Word>>, c: map<Word, multiset<Word>>, done: seq<Pair>, words: seq<Word>, k: nat)
    requires 0 < k < |words|
    requires Counted(m, c, done + AdjacentPairs(words[..k]))
    ensures Counted(m, c[words[k] := Bag(c, words[k]) + multiset{words[k - 1]}], done + AdjacentPairs(words[..k + 1]))
  {
    CountOne(m, c, done + AdjacentPairs(words[..k]), words[k - 1], words[k]);
    assert words[..k + 1][..k] == words[..k];
    assert done + AdjacentPairs(words[..k + 1]) == done + AdjacentPairs(words[..k]) + [(words[k - 1], words[k])];
  }

  /** The first word of a sentence has no previous word and counts nothing. */
  lemma CountFirstWord(m: map<Word, multiset<Word>>, c: map<Word, multiset<Word>>, done: seq<Pair>, words: seq<Word>)
    requires 0 < |words|
    requires Counted(m, c, done + AdjacentPairs(words[..0]))
    ensures Counted(m, c, done + AdjacentPairs(words[..1]))
  {
    CountedSame(m, c, done + AdjacentPairs(words[..0]), done + AdjacentPairs(words[..1]));
  }

  /** A sentence starts with no pair of its own. */
  lemma StartSentence(m: map<Word, multiset<Word>>, c: map<Word, multiset<Word>>, done: seq<Pair>, words: seq<Word>)
    requires Counted(m, c, done)
    ensures Counted(m, c, done + AdjacentPairs(words[..0]))
  {
    CountedSame(m, c, done, done + AdjacentPairs(words[..0]));
  }

  /** After its last word a sentence has contributed all its pairs. */
  lemma EndSentence(m: map<Word, multiset<Word>>, c: map<Word, multiset<Word>>, sentences: seq<seq<Word>>, s: nat, words: seq<Word>)
    requires s < |sentences| && words == sentences[s]
    requires Counted(m, c, PairsOfSentences(sentences[..s]) + AdjacentPairs(words))
    ensures Counted(m, c, PairsOfSentences(sentences[..s + 1]))
  {
    assert sentences[..s + 1][..s] == sentences[..s];
    CountedSame(m, c, PairsOfSentences(sentences[..s]) + AdjacentPairs(words), PairsOfSentences(sentences[..s + 1]));
  }

  /** No sentence counted yet. */
  lemma StartText(m: map<Word, multiset<Word>>, sentences: seq<seq<Word>>)
    ensures Counted(m, m, PairsOfSentences(sentences[..0]))
  {
    assert sentences[..0] == [];
  }

  /** All sentences counted. */
  lemma EndText(m: map<Word, multiset<Word>>, c: map<Word, multiset<Word>>, text: string)
    requires Counted(m, c, PairsOfSentences(WordLists(SplitIntoSentences(Lower(text)))[..|SplitIntoSentences(Lower(text))|]))
    ensures Counted(m, c, SentencePairs(text))
  {
    var sentences := WordLists(SplitIntoSentences(Lower(text)));
    assert sentences[..|sentences|] == sentences;
    CountedSame(m, c, PairsOfSentences(sentences[..|sentences|]), SentencePairs(text));
  }

  /** The bigram model, a default dictionary of counters that
      `updateBeforeWords` updates in place. */
  class BeforeWords {
    var counts: map<Word, multiset<Word>>

    /** A fresh, empty default dictionary (wierszokleta.py:289). */
    constructor ()
      ensures counts == map[]
    {
      counts := map[];
    }

    /** `updateBeforeWords` (wierszokleta.py:70-78): every word seen right
        after another one in the same sentence of the lower-cased text gains
        that word in its counter, once per occurrence. */
    method UpdateBeforeWords(text: string)
      modifies this
      ensures Counted(old(counts), counts, SentencePairs(text))
    {
      var textLower := Lower(text);
      var sentences := SplitIntoSentences(textLower);
      ghost var m0 := counts;
      ghost var wordLists := WordLists(sentences);
      StartText(m0, wordLists);
      var s := 0;
      while s < |sentences|
        invariant 0 <= s <= |sentences|
        invariant Counted(m0, counts, PairsOfSentences(wordLists[..s]))
      {
        var words := SplitWords(sentences[s]);
        WordListsSpec(sentences, s);
        CountSentence(words, m0, PairsOfSentences(wordLists[..s]));
        EndSentence(m0, counts, wordLists, s, words);
        s := s + 1;
      }
      EndText(m0, counts, text);
    }

    /** The word loop of wierszokleta.py:73-78 over one sentence. */
    method CountSentence(words: seq<Word>, ghost m0: map<Word, multiset<Word>>, ghost done: seq<Pair>)
      requires Counted(m0, counts, done)
      modifies this
      ensures Counted(m0, counts, done + AdjacentPairs(words))
    {
      var previousWord: Option<Word> := None;
      StartSentence(m0, counts, done, words);
      var k := 0;
      while k < |words|
        invariant 0 <= k <= |words|
        invariant previousWord == if k == 0 then None else Some(words[k - 1])
        invariant Counted(m0, counts, done + AdjacentPairs(words[..k]))
      {
        var word := words[k];
        if previousWord != None {
          CountNextWord(m0, counts, done, words, k);
          counts := counts[word := Bag(counts, word) + multiset{previousWord.value}];
        } else {
          CountFirstWord(m0, counts, done, words);
        }
        previousWord := Some(word);
        k := k + 1;
      }
      assert words[..k] == words;
    }
  }

  /** After the update, the multiplicity of `p` in the counter of `w` has grown
      by exactly the number of times `p` stands right before `w` inside one
      sentence, and only words seen after another one gained a counter. */
  lemma UpdateCountsOccurrences(m: map<Word, multiset<Word>>, c: map<Word, multiset<Word>>, text: string, p: Word, w: Word)
    requires Counted(m, c, SentencePairs(text))
    ensures Bag(c, w)[p] == Bag(m, w)[p] + multiset(SentencePairs(text))[(p, w)]
    ensures w in c <==> w in m || exists i :: 0 <= i < |SentencePairs(text)| && SentencePairs(text)[i].1 == w
  {
    assert Bag(c, w) == Bag(m, w) + PredsIn(SentencePairs(text), w);
    PredsInCountsOccurrences(SentencePairs(text), p, w);
    SecondsAreTheSecondWords(SentencePairs(text), w);
  }
}

=== FILE: generation.dfy ===
/** Verse generation (wierszokleta.py:164-220): a line is grown leftwards from
    its last word through the backward bigram model, backtracking over the
    predecessors, until its syllable count is exact; a verse picks, line by
    line, one of the lines that end in a word rhyming with the nearest earlier
    line of the same rhyme symbol, and starts again when a line has no
    candidate. Random choices are nondeterministic choices: every contract
    holds whatever is chosen. */
module Generation {
  import opened Text
  import opened Syllables
  import Rhymes
  import Bigrams

  /** The words seen right before `w` (the keys of its counter, wierszokleta.py:171-173). */
  function Preds(bw: map<Word, multiset<Word>>, w: Word): set<Word>
  {
    set p | p in Bigrams.Bag(bw, w)
  }

  function Last(line: Line): Word
    requires line != []
  {
    line[|line| - 1]
  }

  /** The line with its first word capitalised (wierszokleta.py:167). */
  function CapFirst(line: Line): Line
    requires line != []
  {
    [Capitalize(line[0])] + line[1..]
  }

  // ---------------------------------------------------------------------------
  // Capitalisation and syllables.

  /** An upper-case letter is lowered back to the letter it came from. */
  lemma LowerUpper(c: char)
    requires LowerChar(c) == c
    ensures LowerChar(UpperChar(c)) == c
  {
  }

  /** A lower-case word is the lower case of its capitalisation. */
  lemma LowerCapitalize(w: Word)
    requires Lower(w) == w
    ensures Lower(Capitalize(w)) == w
  {
    var cap := Capitalize(w);
    forall i | 0 <= i < |w| ensures Lower(cap)[i] == w[i] {
      assert Lower(w)[i] == LowerChar(w[i]);
      if i == 0 {
        LowerUpper(w[0]);
      } else {
        assert cap[i] == Lower(w[1..])[i - 1] == LowerChar(w[i]);
      }
    }
  }

  /** Joining lower-case words with spaces gives a lower-case text. */
  lemma {:induction false} LowerJoin(words: seq<Word>)
    requires forall i :: 0 <= i < |words| ==> Lower(words[i]) == words[i]
    ensures Lower(Join(words, ' ')) == Join(words, ' ')
  {
    if |words| > 1 {
      LowerJoin(words[1..]);
      LowerAppend(words[0], [' ']);
      LowerAppend(words[0] + [' '], Join(words[1..], ' '));
    }
  }

  /** Joining a line whose first word is replaced. */
  lemma JoinFirst(x: Word, line: Line)
    requires line != []
    ensures Join([x] + line[1..], ' ') ==
      if |line| == 1 then x else x + [' '] + Join(line[1..], ' ')
  {
    assert ([x] + line[1..])[1..] == line[1..];
  }

  /** A lower-case "i" is a syllable. */
  lemma LowerIIsASyllable()
    ensures NumSyllables("i") == 1
  {
    assert "i"[1..] == "";
    assert VowelCount("i") == 1 && DigraphCount("i") == 0;
    NumSyllablesCounts("i");
  }

  /** An upper-case "I" is not counted. */
  lemma UpperIIsNotCounted()
    ensures NumSyllables("I") == 0
  {
    assert "I"[1..] == "";
    assert VowelCount("I") == 0 && DigraphCount("I") == 0;
    NumSyllablesCounts("I");
  }

  /** The syllables of a two-word line are those of its words. */
  lemma TwoWordLine(a: Word, b: Word)
    ensures NumSyllablesOnList([a, b]) == NumSyllables(a) + NumSyllables(b)
  {
    assert [a, b][1..] == [b];
    assert Join([a, b], ' ') == a + [' '] + b;
    NumSyllablesAcrossSpace(a, b);
  }

  /** As written, the count of a capitalised line can miss the target: for the
      target 2, the chain "i kot" has 2 syllables, but the line returned,
      "I kot", counts 1, since an upper-case vowel is not counted. */
  lemma CapitalisedLineLosesSyllable(raw: Line)
    requires raw == ["i", "kot"]
    ensures NumSyllablesOnList(raw) == 2
    ensures CapFirst(raw) == ["I", "kot"]
    ensures NumSyllablesOnList(CapFirst(raw)) == 1
  {
    var first, second := raw[0], raw[1];
    assert raw == [first, second];
    assert Capitalize(first) == "I";
    assert CapFirst(raw) == [Capitalize(first), second];
    TwoWordLine(first, second);
    TwoWordLine(Capitalize(first), second);
    LowerIIsASyllable();
    UpperIIsNotCounted();
    KotHasOneSyllable();
  }

  /** With a count that ignores case, capitalising a line of lower-case words
      keeps its syllable count, so the line returned meets the target. */
  lemma CaseBlindCountKeepsTarget(raw: Line)
    requires raw != []
    requires forall i :: 0 <= i < |raw| ==> Lower(raw[i]) == raw[i]
    ensures NumSyllablesIgnoringCase(CapFirst(raw)) == NumSyllablesOnList(raw)
  {
    var cap := Capitalize(raw[0]);
    LowerCapitalize(raw[0]);
    JoinFirst(cap, raw);
    JoinFirst(raw[0], raw);
    assert [raw[0]] + raw[1..] == raw;
    if |raw| > 1 {
      var rest := Join(raw[1..], ' ');
      LowerJoin(raw[1..]);
      LowerAppend(cap, [' ']);
      LowerAppend(cap + [' '], rest);
      assert Lower([' ']) == [' '];
      assert Lower(Join(CapFirst(raw), ' ')) == Join(raw, ' ');
    }
  }

  // ---------------------------------------------------------------------------
  // Lines.

  /** `raw` is `line` grown leftwards, each added word seen right before the
      word after it, to exactly `syllables` syllables. */
  ghost predicate Completes(bw: map<Word, multiset<Word>>, syllables: int, line: Line, raw: Line)
  {
    && line != []
    && |line| <= |raw|
    && raw[|raw| - |line|..] == line
    && NumSyllablesOnList(raw) == syllables
    && forall k :: 0 <= k < |raw| - |line| ==> raw[k] in Preds(bw, raw[k + 1])
  }

  /** Every intermediate line the search went through was still short of the target. */
  ghost predicate GrewWhileShort(syllables: int, line: Line, raw: Line)
    requires |line| <= |raw|
  {
    forall j :: 0 < j <= |raw| - |line| ==> NumSyllablesOnList(raw[j..]) < syllables
  }

  /** Some completion of `line` adds at most `depth` words: the search tree of
      `createLine`, cut at depth `depth`. */
  ghost predicate CanComplete(bw: map<Word, multiset<Word>>, syllables: int, line: Line, depth: nat)
    requires line != []
    decreases depth
  {
    var s := NumSyllablesOnList(line);
    || s == syllables
    || (s < syllables && depth > 0 &&
        exists p :: p in Preds(bw, line[0]) && CanComplete(bw, syllables, [p] + line, depth - 1))
  }

  lemma SuffixAfterCons(raw: Line, p: Word, line: Line)
    requires |raw| > |line| && raw[|raw| - |line| - 1..] == [p] + line
    ensures raw[|raw| - |line|..] == line && raw[|raw| - |line| - 1] == p
  {
    var n := |raw| - |line|;
    assert raw[n..] == raw[n - 1..][1..];
    assert raw[n - 1] == raw[n - 1..][0];
  }

  /** A completion through one more predecessor `p` is a completion of `line`. */
  lemma CompletesStep(bw: map<Word, multiset<Word>>, syllables: int, line: Line, p: Word, raw: Line)
    requires line != [] && p in Preds(bw, line[0])
    requires Completes(bw, syllables, [p] + line, raw) && GrewWhileShort(syllables, [p] + line, raw)
    requires NumSyllablesOnList(line) < syllables
    ensures Completes(bw, syllables, line, raw) && GrewWhileShort(syllables, line, raw)
  {
    SuffixAfterCons(raw, p, line);
    ChainStep(bw, line, p, raw);
    GrewStep(syllables, line, p, raw);
  }

  lemma GrewStep(syllables: int, line: Line, p: Word, raw: Line)
    requires |raw| > |line| && raw[|raw| - |line|..] == line
    requires GrewWhileShort(syllables, [p] + line, raw)
    requires NumSyllablesOnList(line) < syllables
    ensures GrewWhileShort(syllables, line, raw)
  {
    var n := |raw| - |line|;
    forall j | 0 < j <= n ensures NumSyllablesOnList(raw[j..]) < syllables {
      if j < n {
        assert 0 < j <= |raw| - |[p] + line|;
      }
    }
  }

  lemma ChainStep(bw: map<Word, multiset<Word>>, line: Line, p: Word, raw: Line)
    requires line != [] && |raw| > |line| && p in Preds(bw, line[0])
    requires raw[|raw| - |line|..] == line && raw[|raw| - |line| - 1] == p
    requires forall k :: 0 <= k < |raw| - |line| - 1 ==> raw[k] in Preds(bw, raw[k + 1])
    ensures forall k :: 0 <= k < |raw| - |line| ==> raw[k] in Preds(bw, raw[k + 1])
  {
    var n := |raw| - |line|;
    assert raw[n] == line[0];
  }

  /** A completion of `line` that adds words passes through the word right
      before `line`. */
  lemma CompletesBack(bw: map<Word, multiset<Word>>, syllables: int, line: Line, raw: Line)
    requires Completes(bw, syllables, line, raw) && NumSyllablesOnList(line) != syllables
    ensures |raw| > |line| && NumSyllablesOnList(line) < syllables
    ensures raw[|raw| - |line| - 1] in Preds(bw, line[0])
    ensures Completes(bw, syllables, [raw[|raw| - |line| - 1]] + line, raw)
  {
    var n := |raw| - |line|;
    SyllablesOfSuffix(raw, n);
    var p := raw[n - 1];
    assert raw[n - 1..] == [p] + line;
    assert raw[n] == line[0];
  }

  /** The search is complete: whenever a completion adding at most `depth`
      words exists, the search tree of depth `depth` holds one. */
  lemma {:induction false} CompletionFound(bw: map<Word, multiset<Word>>, syllables: int, line: Line, raw: Line, depth: nat)
    requires line != [] && Completes(bw, syllables, line, raw) && |raw| - |line| <= depth
    ensures CanComplete(bw, syllables, line, depth)
    decreases depth
  {
    if NumSyllablesOnList(line) != syllables {
      CompletesBack(bw, syllables, line, raw);
      var p := raw[|raw| - |line| - 1];
      CompletionFound(bw, syllables, [p] + line, raw, depth - 1);
    }
  }

  /** Conversely, the search tree of depth `depth` only holds completions
      adding at most `depth` words. */
  lemma {:induction false} CompletionExists(bw: map<Word, multiset<Word>>, syllables: int, line: Line, depth: nat)
    requires line != [] && CanComplete(bw, syllables, line, depth)
    ensures exists raw :: Completes(bw, syllables, line, raw) && |raw| - |line| <= depth
    decreases depth
  {
    if NumSyllablesOnList(line) == syllables {
      assert line[0..] == line;
      assert Completes(bw, syllables, line, line);
    } else {
      var p :| p in Preds(bw, line[0]) && CanComplete(bw, syllables, [p] + line, depth - 1);
      CompletionExists(bw, syllables, [p] + line, depth - 1);
      var raw :| Completes(bw, syllables, [p] + line, raw) && |raw| - |line| - 1 <= depth - 1;
      var n := |raw| - |line|;
      assert raw[n - 1..] == [p] + line;
      assert raw[n..] == raw[n - 1..][1..];
      forall k | 0 <= k < n ensures raw[k] in Preds(bw, raw[k + 1]) {
        if k == n - 1 {
          assert raw[k] == ([p] + line)[0] && raw[k + 1] == ([p] + line)[1];
        }
      }
      assert Completes(bw, syllables, line, raw);
    }
  }

  /** `createLine` (wierszokleta.py:164-181): the capitalised completion of
      `line`, or `None`. The search is cut at `depth` added words (`depth`
      stands for the interpreter's recursion limit). */
  method CreateLine(syllables: int, bw: map<Word, multiset<Word>>, line: Line, depth: nat)
    returns (r: Option<Line>, ghost raw: Line)
    requires line != []
    ensures r.Some? <==> CanComplete(bw, syllables, line, depth)
    ensures r.Some? ==>
      && Completes(bw, syllables, line, raw) && |raw| - |line| <= depth
      && GrewWhileShort(syllables, line, raw)
      && r.value == CapFirst(raw)
    ensures NumSyllablesOnList(line) > syllables ==> r.None?
    ensures NumSyllablesOnList(line) < syllables && Preds(bw, line[0]) == {} ==> r.None?
    decreases depth
  {
    var s := NumSyllablesOnList(line);
    if s == syllables {
      assert line[0..] == line;
      return Some(CapFirst(line)), line;
    }
    if s > syllables {
      return None, line;
    }
    var possibleWords := Preds(bw, line[0]);
    if possibleWords == {} || depth == 0 {
      return None, line;
    }
    var possibleWordsLeft := possibleWords;
    var word :| word in possibleWordsLeft;
    possibleWordsLeft := possibleWordsLeft - {word};
    var newline, newRaw := CreateLine(syllables, bw, [word] + line, depth - 1);
    ghost var chosen := word;
    while newline.None? && possibleWordsLeft != {}
      invariant possibleWordsLeft <= possibleWords
      invariant newline.None? ==>
        forall p :: p in possibleWords && p !in possibleWordsLeft ==> !CanComplete(bw, syllables, [p] + line, depth - 1)
      invariant newline.Some? ==>
        && chosen in possibleWords && CanComplete(bw, syllables, [chosen] + line, depth - 1)
        && Completes(bw, syllables, [chosen] + line, newRaw) && |newRaw| - |line| - 1 <= depth - 1
        && GrewWhileShort(syllables, [chosen] + line, newRaw)
        && newline.value == CapFirst(newRaw)
      decreases possibleWordsLeft
    {
      word :| word in possibleWordsLeft;
      possibleWordsLeft := possibleWordsLeft - {word};
      newline, newRaw := CreateLine(syllables, bw, [word] + line, depth - 1);
      chosen := word;
    }
    r, raw := newline, newRaw;
    if newline.Some? {
      CompletesStep(bw, syllables, line, chosen, raw);
    }
  }

  /** A finished line: `raw` has `syllables` syllables, each word was seen
      right before the next one, and `line` is `raw` capitalised. */
  ghost predicate LineFor(bw: map<Word, multiset<Word>>, syllables: int, line: Line, raw: Line)
  {
    && raw != []
    && NumSyllablesOnList(raw) == syllables
    && (forall k :: 0 <= k < |raw| - 1 ==> raw[k] in Preds(bw, raw[k + 1]))
    && line == CapFirst(raw)
  }

  /** `createLineWithLastWord` (wierszokleta.py:183-184). */
  method CreateLineWithLastWord(syllables: int, bw: map<Word, multiset<Word>>, lastWord: Word, depth: nat)
    returns (r: Option<Line>, ghost raw: Line)
    ensures r.Some? <==> CanComplete(bw, syllables, [lastWord], depth)
    ensures r.Some? ==> LineFor(bw, syllables, r.value, raw) && Last(raw) == lastWord && |raw| <= depth + 1
  {
    r, raw := CreateLine(syllables, bw, [lastWord], depth);
    if r.Some? {
      assert raw[|raw| - 1..] == [lastWord];
      assert raw[|raw| - 1] == [lastWord][0];
    }
  }

  // ---------------------------------------------------------------------------
  // Rhyme anchors.

  /** Line `j` is the nearest earlier line with the same rhyme symbol as line `i`. */
  predicate NearestSame(pattern: string, j: int, i: int)
  {
    0 <= j < i < |pattern| && pattern[j] == pattern[i] && forall k :: j < k < i ==> pattern[k] != pattern[i]
  }

  /** No earlier line has the rhyme symbol of line `i`. */
  predicate FirstOfSymbol(pattern: string, i: int)
  {
    0 <= i < |pattern| && forall k :: 0 <= k < i ==> pattern[k] != pattern[i]
  }

  /** The backward search of wierszokleta.py:191-195. */
  method FindRhymingLine(rhymePattern: string, lineNumber: nat) returns (anchor: Option<nat>)
    requires lineNumber < |rhymePattern|
    ensures anchor.Some? ==> NearestSame(rhymePattern, anchor.value, lineNumber)
    ensures anchor.None? ==> FirstOfSymbol(rhymePattern, lineNumber)
  {
    var i: int := lineNumber - 1;
    while i >= 0
      invariant -1 <= i < lineNumber
      invariant forall k :: i < k < lineNumber ==> rhymePattern[k] != rhymePattern[lineNumber]
    {
      if rhymePattern[i] == rhymePattern[lineNumber] {
        return Some(i);
      }
      i := i - 1;
    }
    return None;
  }

  /** Each line has at most one nearest earlier line of its symbol. */
  lemma NearestSameUnique(pattern: string, j1: int, j2: int, i: int)
    requires NearestSame(pattern, j1, i) && NearestSame(pattern, j2, i)
    ensures j1 == j2
  {
  }

  /** A line either opens its symbol or has a nearest earlier line of it. */
  lemma {:induction false} NearestSameExists(pattern: string, k: int, i: int)
    requires 0 <= k < i < |pattern| && pattern[k] == pattern[i]
    ensures exists j :: NearestSame(pattern, j, i)
    decreases i - k
  {
    if forall m :: k < m < i ==> pattern[m] != pattern[i] {
      assert NearestSame(pattern, k, i);
    } else {
      var m :| k < m < i && pattern[m] == pattern[i];
      NearestSameExists(pattern, m, i);
    }
  }

  lemma AnchorCases(pattern: string, i: int)
    requires 0 <= i < |pattern|
    ensures FirstOfSymbol(pattern, i) <==> !exists j :: NearestSame(pattern, j, i)
  {
    if !FirstOfSymbol(pattern, i) {
      var k :| 0 <= k < i && pattern[k] == pattern[i];
      NearestSameExists(pattern, k, i);
    }
  }

  // ---------------------------------------------------------------------------
  // Candidate lines.

  /** `line` is a candidate built for one of `lastWords`. */
  ghost predicate Candidate(bw: map<Word, multiset<Word>>, syllables: int, lastWords: set<Word>, depth: nat, line: Line, raw: Line)
  {
    && LineFor(bw, syllables, line, raw)
    && Last(raw) in lastWords
    && CanComplete(bw, syllables, [Last(raw)], depth)
  }

  /** The lines that can be built for each of `lastWords` (the loops of
      wierszokleta.py:197-205). */
  method CollectLines(bw: map<Word, multiset<Word>>, syllables: int, lastWords: set<Word>, depth: nat)
    returns (possibleLines: seq<Line>, ghost possibleRaws: seq<Line>)
    ensures |possibleRaws| == |possibleLines|
    ensures forall k :: 0 <= k < |possibleLines| ==>
      && LineFor(bw, syllables, possibleLines[k], possibleRaws[k])
      && Last(possibleRaws[k]) in lastWords
      && CanComplete(bw, syllables, [Last(possibleRaws[k])], depth)
    ensures forall w :: w in lastWords && CanComplete(bw, syllables, [w], depth) ==>
      exists k :: 0 <= k < |possibleRaws| && possibleRaws[k] != [] && Last(possibleRaws[k]) == w
  {
    possibleLines, possibleRaws := [], [];
    ghost var position: map<Word, nat> := map[];
    var todo := lastWords;
    while todo != {}
      invariant todo <= lastWords
      invariant |possibleRaws| == |possibleLines|
      invariant forall k :: 0 <= k < |possibleLines| ==>
        Candidate(bw, syllables, lastWords, depth, possibleLines[k], possibleRaws[k])
      invariant forall w :: w in position ==> position[w] < |possibleRaws| && possibleRaws[position[w]] != [] && Last(possibleRaws[position[w]]) == w
      invariant forall w :: w in lastWords && w !in todo && CanComplete(bw, syllables, [w], depth) ==> w in position
      decreases todo
    {
      var lastWord :| lastWord in todo;
      todo := todo - {lastWord};
      var l, raw := CreateLineWithLastWord(syllables, bw, lastWord, depth);
      if l.Some? {
        assert Candidate(bw, syllables, lastWords, depth, l.value, raw);
        position := position[lastWord := |possibleRaws|];
        possibleLines, possibleRaws := possibleLines + [l.value], possibleRaws + [raw];
      }
    }
    forall w | w in lastWords && CanComplete(bw, syllables, [w], depth)
      ensures exists k :: 0 <= k < |possibleRaws| && possibleRaws[k] != [] && Last(possibleRaws[k]) == w
    {
      var k := position[w];
      assert 0 <= k < |possibleRaws| && possibleRaws[k] != [] && Last(possibleRaws[k]) == w;
    }
  }

  /** A set of at least `n` elements has a subset of exactly `n`. */
  lemma {:induction false} SubsetOfSize(s: set<Word>, n: nat)
    requires n <= |s|
    ensures exists t :: t <= s && |t| == n
    decreases n
  {
    if n == 0 {
      var empty: set<Word> := {};
      assert empty <= s && |empty| == 0;
    } else {
      var x :| x in s;
      SubsetOfSize(s - {x}, n - 1);
      var t :| t <= s - {x} && |t| == n - 1;
      assert t + {x} <= s && |t + {x}| == n;
    }
  }

  lemma {:induction false} SubsetSize(a: set<Word>, b: set<Word>)
    requires a <= b
    ensures |a| <= |b|
    decreases a
  {
    if a != {} {
      var x :| x in a;
      SubsetSize(a - {x}, b - {x});
    }
  }

  // ---------------------------------------------------------------------------
  // Verses.

  /** `after` is `before` with some absent keys read from the default
      dictionary, each of which now maps to the empty set. */
  ghost predicate Extends(before: map<Word, set<Word>>, after: map<Word, set<Word>>)
  {
    && before.Keys <= after.Keys
    && (forall w :: w in before ==> after[w] == before[w])
    && (forall w :: w in after && w !in before ==> after[w] == {})
  }

  /** Reading absent keys changes no rhyme class. */
  lemma ExtendsKeepsClasses(before: map<Word, set<Word>>, after: map<Word, set<Word>>, w: Word)
    requires Extends(before, after)
    ensures Rhymes.Get(after, w) == Rhymes.Get(before, w)
  {
  }

  lemma ExtendsTransitive(a: map<Word, set<Word>>, b: map<Word, set<Word>>, c: map<Word, set<Word>>)
    requires Extends(a, b) && Extends(b, c)
    ensures Extends(a, c)
  {
  }

  /** Line `i` has `syllablePattern[i]` syllables before capitalisation and is
      a chain of the bigram model. */
  ghost predicate LinesFit(bw: map<Word, multiset<Word>>, syllablePattern: seq<int>, lines: seq<Line>, raws: seq<Line>)
  {
    && |lines| == |raws| <= |syllablePattern|
    && forall i :: 0 <= i < |lines| ==> LineFor(bw, syllablePattern[i], lines[i], raws[i])
  }

  /** A line with an earlier line of its symbol ends in a word of the rhyme
      class of the last word of the nearest such line. */
  ghost predicate AnchorsRhyme(rhymes: map<Word, set<Word>>, rhymePattern: string, lines: seq<Line>, raws: seq<Line>)
  {
    && |lines| == |raws|
    && forall i, j :: 0 <= i < |lines| && NearestSame(rhymePattern, j, i) ==>
         raws[i] != [] && lines[j] != [] && Last(raws[i]) in Rhymes.Get(rhymes, Last(lines[j]))
  }

  /** A line opening its symbol ends in a key of `keys`. */
  ghost predicate OpenersAreKeys(keys: set<Word>, rhymePattern: string, raws: seq<Line>)
  {
    forall i :: 0 <= i < |raws| && FirstOfSymbol(rhymePattern, i) ==> raws[i] != [] && Last(raws[i]) in keys
  }

  /** The first lines of a verse. */
  ghost predicate VerseSoFar(bw: map<Word, multiset<Word>>, rhymes: map<Word, set<Word>>, keys: set<Word>,
                             rhymePattern: string, syllablePattern: seq<int>, lines: seq<Line>, raws: seq<Line>)
  {
    && |lines| <= |rhymePattern|
    && LinesFit(bw, syllablePattern, lines, raws)
    && AnchorsRhyme(rhymes, rhymePattern, lines, raws)
    && OpenersAreKeys(keys, rhymePattern, raws)
  }

  lemma AnchorsRhymeSameClasses(rhymes: map<Word, set<Word>>, rhymes': map<Word, set<Word>>,
                                rhymePattern: string, lines: seq<Line>, raws: seq<Line>)
    requires AnchorsRhyme(rhymes', rhymePattern, lines, raws) && Extends(rhymes, rhymes')
    ensures AnchorsRhyme(rhymes, rhymePattern, lines, raws)
  {
    forall w ensures Rhymes.Get(rhymes', w) == Rhymes.Get(rhymes, w) {
      ExtendsKeepsClasses(rhymes, rhymes', w);
    }
  }

  lemma LinesFitStep(bw: map<Word, multiset<Word>>, syllablePattern: seq<int>, lines: seq<Line>, raws: seq<Line>,
                     line: Line, raw: Line)
    requires LinesFit(bw, syllablePattern, lines, raws) && |lines| < |syllablePattern|
    requires LineFor(bw, syllablePattern[|lines|], line, raw)
    ensures LinesFit(bw, syllablePattern, lines + [line], raws + [raw])
  {
    var lines', raws' := lines + [line], raws + [raw];
    forall i | 0 <= i < |lines'| ensures LineFor(bw, syllablePattern[i], lines'[i], raws'[i]) {
      if i < |lines| {
        assert lines'[i] == lines[i] && raws'[i] == raws[i];
      }
    }
  }

  lemma AnchorsRhymeStep(rhymes: map<Word, set<Word>>, rhymePattern: string, lines: seq<Line>, raws: seq<Line>,
                         anchor: Option<nat>, line: Line, raw: Line)
    requires AnchorsRhyme(rhymes, rhymePattern, lines, raws) && raw != [] && line != []
    requires anchor.Some? ==>
      && NearestSame(rhymePattern, anchor.value, |lines|) && lines[anchor.value] != []
      && Last(raw) in Rhymes.Get(rhymes, Last(lines[anchor.value]))
    requires anchor.None? ==> FirstOfSymbol(rhymePattern, |lines|)
    ensures AnchorsRhyme(rhymes, rhymePattern, lines + [line], raws + [raw])
  {
    var n := |lines|;
    var lines', raws' := lines + [line], raws + [raw];
    forall i, j | 0 <= i < |lines'| && NearestSame(rhymePattern, j, i)
      ensures raws'[i] != [] && lines'[j] != [] && Last(raws'[i]) in Rhymes.Get(rhymes, Last(lines'[j]))
    {
      assert lines'[j] == lines[j];
      if i == n {
        if anchor.Some? {
          NearestSameUnique(rhymePattern, j, anchor.value, n);
        }
      } else {
        assert raws'[i] == raws[i];
      }
    }
  }

  lemma OpenersStep(keys: set<Word>, rhymePattern: string, raws: seq<Line>, raw: Line)
    requires OpenersAreKeys(keys, rhymePattern, raws) && raw != []
    requires FirstOfSymbol(rhymePattern, |raws|) ==> Last(raw) in keys
    ensures OpenersAreKeys(keys, rhymePattern, raws + [raw])
  {
    var raws' := raws + [raw];
    forall i | 0 <= i < |raws'| && FirstOfSymbol(rhymePattern, i) ensures raws'[i] != [] && Last(raws'[i]) in keys {
      if i < |raws| {
        assert raws'[i] == raws[i];
      }
    }
  }

  /** The verse as text: each line's words joined by spaces and ended by a
      newline (wierszokleta.py:215-218). */
  function VerseText(lines: seq<Line>): string
  {
    if lines == [] then [] else VerseText(lines[..|lines| - 1]) + Join(lines[|lines| - 1], ' ') + "\n"
  }

  /** The text-building loop of wierszokleta.py:215-218. */
  method JoinVerse(lines: seq<Line>) returns (text: string)
    ensures text == VerseText(lines)
  {
    text := [];
    var i := 0;
    while i < |lines|
      invariant 0 <= i <= |lines|
      invariant text == VerseText(lines[..i])
    {
      assert lines[..i + 1][..i] == lines[..i];
      text := text + Join(lines[i], ' ');
      text := text + "\n";
      i := i + 1;
    }
    assert lines[..i] == lines;
  }

  /** The candidates for the next line of a verse (wierszokleta.py:189-205):
      the lines ending in a word of the rhyme class of the nearest earlier line
      of the same symbol, or, for a line opening its symbol, in one of ten
      keys sampled from the rhyme dictionary. `lastWords` is the set of last
      words tried; no candidate means none of them could end a line. */
  method LineCandidates(bw: map<Word, multiset<Word>>, rhymes: map<Word, set<Word>>, rhymePattern: string,
                        syllablePattern: seq<int>, verseLines: seq<Line>, depth: nat)
    returns (anchor: Option<nat>, possibleLines: seq<Line>, ghost possibleRaws: seq<Line>,
             rhymesAfter: map<Word, set<Word>>, ghost lastWords: set<Word>)
    requires |verseLines| < |rhymePattern| <= |syllablePattern|
    requires forall i :: 0 <= i < |verseLines| ==> verseLines[i] != []
    requires |rhymes| >= 10
    ensures Extends(rhymes, rhymesAfter)
    ensures anchor.Some? ==>
      && NearestSame(rhymePattern, anchor.value, |verseLines|)
      && lastWords == Rhymes.Get(rhymes, Last(verseLines[anchor.value]))
    ensures anchor.None? ==>
      FirstOfSymbol(rhymePattern, |verseLines|) && lastWords <= rhymes.Keys && |lastWords| == 10
    ensures |possibleRaws| == |possibleLines|
    ensures forall k :: 0 <= k < |possibleLines| ==>
      LineFor(bw, syllablePattern[|verseLines|], possibleLines[k], possibleRaws[k]) && Last(possibleRaws[k]) in lastWords
    ensures possibleLines == [] <==> forall w :: w in lastWords ==> !CanComplete(bw, syllablePattern[|verseLines|], [w], depth)
  {
    var lineNumber := |verseLines|;
    anchor := FindRhymingLine(rhymePattern, lineNumber);
    rhymesAfter := rhymes;
    if anchor.Some? {
      var rhymingWord := Last(verseLines[anchor.value]);
      if rhymingWord !in rhymesAfter {
        rhymesAfter := rhymesAfter[rhymingWord := {}];
      }
      lastWords := rhymesAfter[rhymingWord];
      possibleLines, possibleRaws := CollectLines(bw, syllablePattern[lineNumber], rhymesAfter[rhymingWord], depth);
    } else {
      SubsetOfSize(rhymes.Keys, 10);
      var sample :| sample <= rhymes.Keys && |sample| == 10;
      lastWords := sample;
      possibleLines, possibleRaws := CollectLines(bw, syllablePattern[lineNumber], sample, depth);
    }
    if possibleLines != [] {
      assert possibleRaws[0] != [] && Last(possibleRaws[0]) in lastWords;
    }
  }

  /** Each line's words joined by spaces. */
  function JoinedLines(lines: seq<Line>): (r: seq<string>)
    ensures |r| == |lines|
  {
    if lines == [] then [] else JoinedLines(lines[..|lines| - 1]) + [Join(lines[|lines| - 1], ' ')]
  }

  /** The verse text splits back into its lines when no word holds a line
      break. The split on every line break also yields an empty piece after the
      final newline, where `str.splitlines` yields none. */
  lemma {:induction false} VerseTextLines(lines: seq<Line>)
    requires forall i, k :: 0 <= i < |lines| && 0 <= k < |lines[i]| ==> Avoids(lines[i][k], LineBreaks)
    ensures SplitLines(VerseText(lines)) == JoinedLines(lines) + [[]]
  {
    if lines != [] {
      var init, last := lines[..|lines| - 1], lines[|lines| - 1];
      VerseTextLines(init);
      var v, j := VerseText(init), Join(last, ' ');
      JoinAvoids(last, ' ', LineBreaks);
      SplitOnAppendPlain(v, j, LineBreaks);
      SplitOnSeparator(v + j, '\n', [], LineBreaks);
      var p := SplitOn(v, LineBreaks);
      assert p == JoinedLines(init) + [[]];
      calc {
        SplitLines(VerseText(lines));
        { assert VerseText(lines) == v + j + ['\n'] + []; }
        SplitOn(v + j + ['\n'] + [], LineBreaks);
        SplitOn(v + j, LineBreaks) + SplitOn([], LineBreaks);
        p[..|p| - 1] + [p[|p| - 1] + j] + [[]];
        { assert p[..|p| - 1] == JoinedLines(init) && p[|p| - 1] + j == j; }
        JoinedLines(init) + [j] + [[]];
      }
    }
  }

  /** A pass of `createVerse` that stopped at line `|lines|`: the lines so far
      begin a verse, `tried` is the set of last words tried for the next line
      (the rhyme class of its anchor, or ten sampled keys), and none of them
      can end a line (wierszokleta.py:197-211). */
  ghost predicate Stuck(bw: map<Word, multiset<Word>>, rhymes: map<Word, set<Word>>, keys: set<Word>,
                        rhymePattern: string, syllablePattern: seq<int>, depth: nat,
                        lines: seq<Line>, raws: seq<Line>, tried: set<Word>)
  {
    && |lines| < |rhymePattern| <= |syllablePattern|
    && VerseSoFar(bw, rhymes, keys, rhymePattern, syllablePattern, lines, raws)
    && (forall j :: NearestSame(rhymePattern, j, |lines|) ==> tried == Rhymes.Get(rhymes, Last(lines[j])))
    && (FirstOfSymbol(rhymePattern, |lines|) ==> tried <= keys && |tried| == 10)
    && forall w :: w in tried ==> !CanComplete(bw, syllablePattern[|lines|], [w], depth)
  }

  /** Every pass recorded in `passes` got stuck. */
  ghost predicate AllStuck(bw: map<Word, multiset<Word>>, rhymes: map<Word, set<Word>>, keys: set<Word>,
                           rhymePattern: string, syllablePattern: seq<int>, depth: nat,
                           passes: seq<(seq<Line>, seq<Line>, set<Word>)>)
  {
    forall p :: 0 <= p < |passes| ==>
      Stuck(bw, rhymes, keys, rhymePattern, syllablePattern, depth, passes[p].0, passes[p].1, passes[p].2)
  }

  /** A line without candidates makes the pass stuck, whatever keys are read later. */
  lemma StuckAt(bw: map<Word, multiset<Word>>, rhymes: map<Word, set<Word>>, now: map<Word, set<Word>>,
                later: map<Word, set<Word>>, rhymePattern: string, syllablePattern: seq<int>, depth: nat,
                lines: seq<Line>, raws: seq<Line>, anchor: Option<nat>, tried: set<Word>)
    requires Extends(rhymes, now) && Extends(now, later)
    requires |lines| < |rhymePattern| <= |syllablePattern|
    requires VerseSoFar(bw, rhymes, now.Keys, rhymePattern, syllablePattern, lines, raws)
    requires anchor.Some? ==>
      NearestSame(rhymePattern, anchor.value, |lines|) && tried == Rhymes.Get(now, Last(lines[anchor.value]))
    requires anchor.None? ==> FirstOfSymbol(rhymePattern, |lines|) && tried <= now.Keys && |tried| == 10
    requires forall w :: w in tried ==> !CanComplete(bw, syllablePattern[|lines|], [w], depth)
    ensures Stuck(bw, rhymes, later.Keys, rhymePattern, syllablePattern, depth, lines, raws, tried)
  {
    forall j | NearestSame(rhymePattern, j, |lines|)
      ensures tried == Rhymes.Get(rhymes, Last(lines[j]))
    {
      AnchorCases(rhymePattern, |lines|);
      NearestSameUnique(rhymePattern, j, anchor.value, |lines|);
      ExtendsKeepsClasses(rhymes, now, Last(lines[j]));
    }
  }

  /** Reading absent keys keeps every recorded pass stuck. */
  lemma AllStuckSameClasses(bw: map<Word, multiset<Word>>, rhymes: map<Word, set<Word>>, rhymes': map<Word, set<Word>>,
                            keys: set<Word>, rhymePattern: string, syllablePattern: seq<int>, depth: nat,
                            passes: seq<(seq<Line>, seq<Line>, set<Word>)>)
    requires Extends(rhymes, rhymes')
    requires AllStuck(bw, rhymes', keys, rhymePattern, syllablePattern, depth, passes)
    ensures AllStuck(bw, rhymes, keys, rhymePattern, syllablePattern, depth, passes)
  {
    forall p | 0 <= p < |passes|
      ensures Stuck(bw, rhymes, keys, rhymePattern, syllablePattern, depth, passes[p].0, passes[p].1, passes[p].2)
    {
      var (lines, raws, tried) := passes[p];
      assert Stuck(bw, rhymes', keys, rhymePattern, syllablePattern, depth, lines, raws, tried);
      AnchorsRhymeSameClasses(rhymes, rhymes', rhymePattern, lines, raws);
      forall j | NearestSame(rhymePattern, j, |lines|)
        ensures tried == Rhymes.Get(rhymes, Last(lines[j]))
      {
        ExtendsKeepsClasses(rhymes, rhymes', Last(lines[j]));
      }
    }
  }

  /** Recording the pass under more keys keeps it stuck. */
  lemma StuckMoreKeys(bw: map<Word, multiset<Word>>, rhymes: map<Word, set<Word>>, keys: set<Word>, keys': set<Word>,
                      rhymePattern: string, syllablePattern: seq<int>, depth: nat,
                      lines: seq<Line>, raws: seq<Line>, tried: set<Word>)
    requires Stuck(bw, rhymes, keys, rhymePattern, syllablePattern, depth, lines, raws, tried) && keys <= keys'
    ensures Stuck(bw, rhymes, keys', rhymePattern, syllablePattern, depth, lines, raws, tried)
  {
  }

  /** What a restart (wierszokleta.py:211) passes back: the verse found by the
      new pass, or the stuck passes after the current one. */
  lemma AfterRestart(bw: map<Word, multiset<Word>>, rhymes: map<Word, set<Word>>,
                     now: map<Word, set<Word>>, after: map<Word, set<Word>>,
                     rhymePattern: string, syllablePattern: seq<int>, depth: nat,
                     lines: seq<Line>, raws: seq<Line>, tried: set<Word>,
                     found: bool, newLines: seq<Line>, newRaws: seq<Line>, laterPasses: seq<(seq<Line>, seq<Line>, set<Word>)>)
    requires Extends(rhymes, now) && Extends(now, after)
    requires Stuck(bw, rhymes, now.Keys, rhymePattern, syllablePattern, depth, lines, raws, tried)
    requires found ==> VerseSoFar(bw, now, after.Keys, rhymePattern, syllablePattern, newLines, newRaws)
    requires !found ==> AllStuck(bw, now, after.Keys, rhymePattern, syllablePattern, depth, laterPasses)
    ensures Extends(rhymes, after)
    ensures found ==> VerseSoFar(bw, rhymes, after.Keys, rhymePattern, syllablePattern, newLines, newRaws)
    ensures !found ==>
      AllStuck(bw, rhymes, after.Keys, rhymePattern, syllablePattern, depth, [(lines, raws, tried)] + laterPasses)
  {
    ExtendsTransitive(rhymes, now, after);
    if found {
      AnchorsRhymeSameClasses(rhymes, now, rhymePattern, newLines, newRaws);
    } else {
      StuckMoreKeys(bw, rhymes, now.Keys, after.Keys, rhymePattern, syllablePattern, depth, lines, raws, tried);
      AllStuckSameClasses(bw, rhymes, now, after.Keys, rhymePattern, syllablePattern, depth, laterPasses);
    }
  }

  /** One pass of `createVerse` (wierszokleta.py:189-213): line by line, one of
      the candidates is chosen, until the verse is complete or a line has no
      candidate. */
  method VersePass(bw: map<Word, multiset<Word>>, rhymes: map<Word, set<Word>>, rhymePattern: string,
                   syllablePattern: seq<int>, depth: nat)
    returns (complete: bool, rhymesAfter: map<Word, set<Word>>, verseLines: seq<Line>, ghost raws: seq<Line>,
             ghost tried: set<Word>)
    requires |syllablePattern| >= |rhymePattern|
    requires |rhymePattern| > 0 ==> |rhymes| >= 10
    ensures Extends(rhymes, rhymesAfter)
    ensures complete ==>
      |verseLines| == |rhymePattern| && VerseSoFar(bw, rhymes, rhymesAfter.Keys, rhymePattern, syllablePattern, verseLines, raws)
    ensures !complete ==> Stuck(bw, rhymes, rhymesAfter.Keys, rhymePattern, syllablePattern, depth, verseLines, raws, tried)
  {
    rhymesAfter := rhymes;
    verseLines := [];
    raws := [];
    var lineNumber := 0;
    while lineNumber < |rhymePattern|
      invariant lineNumber <= |rhymePattern| && |verseLines| == lineNumber
      invariant Extends(rhymes, rhymesAfter)
      invariant VerseSoFar(bw, rhymes, rhymesAfter.Keys, rhymePattern, syllablePattern, verseLines, raws)
    {
      SubsetSize(rhymes.Keys, rhymesAfter.Keys);
      var anchor, possibleLines, possibleRaws, rhymesNext, lastWords :=
        LineCandidates(bw, rhymesAfter, rhymePattern, syllablePattern, verseLines, depth);
      ExtendsTransitive(rhymes, rhymesAfter, rhymesNext);
      if anchor.Some? {
        ExtendsKeepsClasses(rhymes, rhymesAfter, Last(verseLines[anchor.value]));
      }
      if possibleLines == [] {
        StuckAt(bw, rhymes, rhymesAfter, rhymesNext, rhymePattern, syllablePattern, depth,
                verseLines, raws, anchor, lastWords);
        return false, rhymesNext, verseLines, raws, lastWords;
      }
      rhymesAfter := rhymesNext;
      var k :| 0 <= k < |possibleLines|;
      LinesFitStep(bw, syllablePattern, verseLines, raws, possibleLines[k], possibleRaws[k]);
      AnchorsRhymeStep(rhymes, rhymePattern, verseLines, raws, anchor, possibleLines[k], possibleRaws[k]);
      OpenersStep(rhymesAfter.Keys, rhymePattern, raws, possibleRaws[k]);
      verseLines, raws := verseLines + [possibleLines[k]], raws + [possibleRaws[k]];
      lineNumber := lineNumber + 1;
    }
    complete, tried := true, {};
  }

  /** `createVerse` (wierszokleta.py:186-220). Each restart of line 211 uses
      one of `restarts`; each line search is cut at `depth` added words.
      Reading the rhyme class of an absent word inserts it with an empty class,
      as the default dictionary does; `rhymesAfter` is the dictionary after the
      call. `None` means that `restarts + 1` passes each reached a line none of
      whose tried last words can end a line; `passes` records them. */
  method CreateVerse(bw: map<Word, multiset<Word>>, rhymes: map<Word, set<Word>>, rhymePattern: string,
                     syllablePattern: seq<int>, restarts: nat, depth: nat)
    returns (r: Option<string>, rhymesAfter: map<Word, set<Word>>, ghost lines: seq<Line>, ghost raws: seq<Line>,
             ghost passes: seq<(seq<Line>, seq<Line>, set<Word>)>)
    requires |syllablePattern| >= |rhymePattern|
    requires |rhymePattern| > 0 ==> |rhymes| >= 10
    ensures Extends(rhymes, rhymesAfter)
    ensures r.Some? ==>
      && |lines| == |rhymePattern|
      && r.value == VerseText(lines)
      && VerseSoFar(bw, rhymes, rhymesAfter.Keys, rhymePattern, syllablePattern, lines, raws)
    ensures r.None? ==>
      |passes| == restarts + 1 && AllStuck(bw, rhymes, rhymesAfter.Keys, rhymePattern, syllablePattern, depth, passes)
    decreases restarts
  {
    var complete, rhymesNow, verseLines;
    ghost var tried;
    complete, rhymesNow, verseLines, raws, tried := VersePass(bw, rhymes, rhymePattern, syllablePattern, depth);
    if !complete {
      ghost var pass := (verseLines, raws, tried);
      if restarts == 0 {
        return None, rhymesNow, verseLines, raws, [pass];
      }
      SubsetSize(rhymes.Keys, rhymesNow.Keys);
      ghost var laterPasses;
      r, rhymesAfter, lines, raws, laterPasses :=
        CreateVerse(bw, rhymesNow, rhymePattern, syllablePattern, restarts - 1, depth);
      AfterRestart(bw, rhymes, rhymesNow, rhymesAfter, rhymePattern, syllablePattern, depth,
                   pass.0, pass.1, pass.2, r.Some?, lines, raws, laterPasses);
      passes := [pass] + laterPasses;
      return;
    }
    var text := JoinVerse(verseLines);
    return Some(text), rhymesNow, verseLines, raws, [];
  }
}

=== FILE: propernames.dfy ===
/** Proper-name detection (wierszokleta.py:122-141, 325-330): capitalised
    words that never open a sentence or a line are taken for proper names,
    lower-case words for ordinary ones, and a name whose lower-case form is
    also used as an ordinary word is dropped. */
module ProperNames {
  import opened Text

  /** The first word of each list that has words. */
  function FirstWords(wordLists: seq<seq<Word>>): set<Word>
  {
    if wordLists == [] then {}
    else
      var words := wordLists[|wordLists| - 1];
      FirstWords(wordLists[..|wordLists| - 1]) + (if words == [] then {} else {words[0]})
  }

  /** The words with an upper-case first letter that are in neither `lineStarts`
      nor `sentenceStarts`. */
  function CapitalisedOf(words: seq<Word>, lineStarts: set<Word>, sentenceStarts: set<Word>): set<Word>
  {
    if words == [] then {}
    else
      var w := words[|words| - 1];
      CapitalisedOf(words[..|words| - 1], lineStarts, sentenceStarts)
      + (if IsUpper(w[0]) && w !in lineStarts && w !in sentenceStarts then {w} else {})
  }

  /** The words with a lower-case first letter. */
  function LowercaseOf(words: seq<Word>): set<Word>
  {
    if words == [] then {}
    else
      var w := words[|words| - 1];
      LowercaseOf(words[..|words| - 1]) + (if IsLower(w[0]) then {w} else {})
  }

  /** The text without sentence separators (wierszokleta.py:129). */
  function Clean(text: string): string
  {
    Strip(text, CharSet(SentenceSeparators))
  }

  /** The proper names `findProperNames` finds in `text`. */
  function ProperNamesIn(text: string): set<Word>
  {
    CapitalisedOf(SplitWords(Clean(text)), FirstWords(WordLists(SplitLines(Clean(text)))), FirstWords(WordLists(SplitIntoSentences(text))))
  }

  /** The ordinary words `findProperNames` finds in `text`. */
  function OrdinaryWordsIn(text: string): set<Word>
  {
    LowercaseOf(SplitWords(Clean(text)))
  }

  // ---------------------------------------------------------------------------
  // What the collected sets are.

  /** A word is collected exactly when it is the first word of some list. */
  lemma {:induction false} FirstWordsSpec(wordLists: seq<seq<Word>>, w: Word)
    ensures w in FirstWords(wordLists) <==>
      exists i :: 0 <= i < |wordLists| && wordLists[i] != [] && wordLists[i][0] == w
  {
    if wordLists != [] {
      var init := wordLists[..|wordLists| - 1];
      FirstWordsSpec(init, w);
      if w in FirstWords(init) {
        var i :| 0 <= i < |init| && init[i] != [] && init[i][0] == w;
        assert wordLists[i] == init[i];
      }
      if exists i :: 0 <= i < |wordLists| && wordLists[i] != [] && wordLists[i][0] == w {
        var i :| 0 <= i < |wordLists| && wordLists[i] != [] && wordLists[i][0] == w;
        if i < |init| {
          assert init[i] == wordLists[i];
        }
      }
    }
  }

  /** A word opens some piece exactly when it is the first word `str.split()`
      finds in one of them. */
  lemma FirstWordsOfPieces(pieces: seq<string>, w: Word)
    ensures w in FirstWords(WordLists(pieces)) <==>
      exists i :: 0 <= i < |pieces| && SplitWords(pieces[i]) != [] && SplitWords(pieces[i])[0] == w
  {
    FirstWordsSpec(WordLists(pieces), w);
    forall i | 0 <= i < |pieces| ensures WordLists(pieces)[i] == SplitWords(pieces[i]) {
      WordListsSpec(pieces, i);
    }
  }

  lemma {:induction false} CapitalisedOfSpec(words: seq<Word>, lineStarts: set<Word>, sentenceStarts: set<Word>, w: Word)
    ensures w in CapitalisedOf(words, lineStarts, sentenceStarts) <==>
      w in words && IsUpper(w[0]) && w !in lineStarts && w !in sentenceStarts
  {
    if words != [] {
      var init := words[..|words| - 1];
      CapitalisedOfSpec(init, lineStarts, sentenceStarts, w);
      assert words == init + [words[|words| - 1]];
    }
  }

  lemma {:induction false} LowercaseOfSpec(words: seq<Word>, w: Word)
    ensures w in LowercaseOf(words) <==> w in words && IsLower(w[0])
  {
    if words != [] {
      var init := words[..|words| - 1];
      LowercaseOfSpec(init, w);
      assert words == init + [words[|words| - 1]];
    }
  }

  /** A word of `text` is a proper name iff its first letter is upper case and
      it opens no line and no sentence (wierszokleta.py:137-139). */
  lemma ProperNamesInSpec(text: string, w: Word)
    ensures w in ProperNamesIn(text) <==>
      && w in SplitWords(Clean(text))
      && IsUpper(w[0])
      && !(exists i :: 0 <= i < |SplitLines(Clean(text))| && SplitWords(SplitLines(Clean(text))[i]) != []
             && SplitWords(SplitLines(Clean(text))[i])[0] == w)
      && !(exists i :: 0 <= i < |SplitIntoSentences(text)| && SplitWords(SplitIntoSentences(text)[i]) != []
             && SplitWords(SplitIntoSentences(text)[i])[0] == w)
  {
    CapitalisedOfSpec(SplitWords(Clean(text)), FirstWords(WordLists(SplitLines(Clean(text)))), FirstWords(WordLists(SplitIntoSentences(text))), w);
    FirstWordsOfPieces(SplitLines(Clean(text)), w);
    FirstWordsOfPieces(SplitIntoSentences(text), w);
  }

  /** The letter-case table has no letter that is both upper and lower case. */
  lemma CaseIsExclusive(c: char)
    ensures !(IsUpper(c) && IsLower(c))
  {
    assert UpperPolish == ['Ą', 'Ć', 'Ę', 'Ł', 'Ń', 'Ó', 'Ś', 'Ź', 'Ż'];
    assert LowerPolish == ['ą', 'ć', 'ę', 'ł', 'ń', 'ó', 'ś', 'ź', 'ż'];
  }

  /** One text never makes the same word both a proper name and an ordinary word. */
  lemma NamesAndOrdinaryWordsAreDisjoint(text: string)
    ensures ProperNamesIn(text) !! OrdinaryWordsIn(text)
  {
    forall w | w in ProperNamesIn(text) ensures w !in OrdinaryWordsIn(text) {
      CapitalisedOfSpec(SplitWords(Clean(text)), FirstWords(WordLists(SplitLines(Clean(text)))), FirstWords(WordLists(SplitIntoSentences(text))), w);
      LowercaseOfSpec(SplitWords(Clean(text)), w);
      CaseIsExclusive(w[0]);
    }
  }

  // ---------------------------------------------------------------------------
  // The collection, step by step.

  lemma FirstWordsOneMore(pieces: seq<string>, i: nat)
    requires i < |pieces|
    ensures FirstWords(WordLists(pieces[..i + 1])) ==
      FirstWords(WordLists(pieces[..i])) + (if SplitWords(pieces[i]) == [] then {} else {SplitWords(pieces[i])[0]})
  {
    assert pieces[..i + 1][..i] == pieces[..i];
    var lists := WordLists(pieces[..i + 1]);
    assert lists[..i] == WordLists(pieces[..i]);
    assert lists[i] == SplitWords(pieces[i]);
  }

  lemma CapitalisedOneMore(words: seq<Word>, k: nat, lineStarts: set<Word>, sentenceStarts: set<Word>)
    requires k < |words|
    ensures CapitalisedOf(words[..k + 1], lineStarts, sentenceStarts) ==
      CapitalisedOf(words[..k], lineStarts, sentenceStarts)
      + (if IsUpper(words[k][0]) && words[k] !in lineStarts && words[k] !in sentenceStarts then {words[k]} else {})
  {
    assert words[..k + 1][..k] == words[..k];
  }

  lemma LowercaseOneMore(words: seq<Word>, k: nat)
    requires k < |words|
    ensures LowercaseOf(words[..k + 1]) == LowercaseOf(words[..k]) + (if IsLower(words[k][0]) then {words[k]} else {})
  {
    assert words[..k + 1][..k] == words[..k];
  }

  /** The first words of the lines, as the loop at wierszokleta.py:132-135
      collects them (and of the sentences, wierszokleta.py:124-128). */
  method CollectFirstWords(pieces: seq<string>) returns (firstWords: set<Word>)
    ensures firstWords == FirstWords(WordLists(pieces))
  {
    firstWords := {};
    var i := 0;
    while i < |pieces|
      invariant 0 <= i <= |pieces|
      invariant firstWords == FirstWords(WordLists(pieces[..i]))
    {
      var words := SplitWords(pieces[i]);
      FirstWordsOneMore(pieces, i);
      if words != [] {
        firstWords := firstWords + {words[0]};
      }
      i := i + 1;
    }
    assert pieces[..i] == pieces;
  }

  /** The two sets `findProperNames` adds to, in place. */
  class ProperNameSets {
    var properNames: set<Word>
    var ordinaryWords: set<Word>

    /** Two fresh, empty sets (wierszokleta.py:290-291). */
    constructor ()
      ensures properNames == {} && ordinaryWords == {}
    {
      properNames, ordinaryWords := {}, {};
    }

    /** `findProperNames` (wierszokleta.py:122-141). */
    method FindProperNames(text: string)
      modifies this
      ensures properNames == old(properNames) + ProperNamesIn(text)
      ensures ordinaryWords == old(ordinaryWords) + OrdinaryWordsIn(text)
    {
      var sentences := SplitIntoSentences(text);
      var firstWordsInSentence := CollectFirstWords(sentences);
      var cleanText := RemoveCharacters(text, SentenceSeparators);
      var lines := SplitLines(cleanText);
      var firstWordsInLine := CollectFirstWords(lines);
      var words := SplitWords(cleanText);
      AddWords(words, firstWordsInLine, firstWordsInSentence);
    }

    /** The word loop of wierszokleta.py:136-141. */
    method AddWords(words: seq<Word>, firstWordsInLine: set<Word>, firstWordsInSentence: set<Word>)
      modifies this
      ensures properNames == old(properNames) + CapitalisedOf(words, firstWordsInLine, firstWordsInSentence)
      ensures ordinaryWords == old(ordinaryWords) + LowercaseOf(words)
    {
      var k := 0;
      while k < |words|
        invariant 0 <= k <= |words|
        invariant properNames == old(properNames) + CapitalisedOf(words[..k], firstWordsInLine, firstWordsInSentence)
        invariant ordinaryWords == old(ordinaryWords) + LowercaseOf(words[..k])
      {
        var word := words[k];
        CapitalisedOneMore(words, k, firstWordsInLine, firstWordsInSentence);
        LowercaseOneMore(words, k);
        if IsUpper(word[0]) && word !in firstWordsInLine && word !in firstWordsInSentence {
          properNames := properNames + {word};
        }
        if IsLower(word[0]) {
          ordinaryWords := ordinaryWords + {word};
        }
        k := k + 1;
      }
      assert words[..k] == words;
    }
  }

  /** The filter of wierszokleta.py:325-330: keeps the names whose lower-case
      form was never seen as an ordinary word. */
  method FilterProperNames(properNames: set<Word>, ordinaryWords: set<Word>) returns (properNames2: set<Word>)
    ensures forall p :: p in properNames2 <==> p in properNames && Lower(p) !in ordinaryWords
  {
    properNames2 := {};
    var todo := properNames;
    while todo != {}
      invariant todo <= properNames
      invariant forall p :: p in properNames2 <==> p in properNames - todo && Lower(p) !in ordinaryWords
      decreases todo
    {
      var properName :| properName in todo;
      var ordinaryWord := Lower(properName);
      if ordinaryWord !in ordinaryWords {
        properNames2 := properNames2 + {properName};
      }
      todo := todo - {properName};
    }
  }
}

=== FILE: rhymes.dfy ===
/** The rhyme classifier (wierszokleta.py:80-120): a pairwise rhyme test on
    normalised word endings, and rhyme classes kept symmetric and transitive
    by merging two classes whenever two nearby line endings rhyme. */
module Rhymes {
  import opened Text

  // ---------------------------------------------------------------------------
  // The pairwise test.

  /** Python's `str.replace(pat, rep)`: occurrences found scanning from the
      left, each search resuming after the previous match. */
  function Replace(s: string, pat: string, rep: string): string
    requires |pat| > 0
    decreases |s|
  {
    if |s| < |pat| then s
    else if s[..|pat|] == pat then rep + Replace(s[|pat|..], pat, rep)
    else [s[0]] + Replace(s[1..], pat, rep)
  }

  /** Replacing brings in no character that is in neither the text nor the replacement. */
  lemma {:induction false} ReplaceKeepsChars(s: string, pat: string, rep: string, c: char)
    requires |pat| > 0
    ensures c in Replace(s, pat, rep) ==> c in s || c in rep
    decreases |s|
  {
    if |s| >= |pat| {
      if s[..|pat|] == pat {
        ReplaceKeepsChars(s[|pat|..], pat, rep, c);
      } else {
        ReplaceKeepsChars(s[1..], pat, rep, c);
      }
    }
  }

  /** Replacing a single character by a text without it leaves none of it. */
  lemma {:induction false} ReplaceRemovesChar(s: string, c: char, rep: string)
    requires c !in rep
    ensures c !in Replace(s, [c], rep)
    decreases |s|
  {
    if |s| >= 1 {
      if s[..1] == [c] {
        ReplaceRemovesChar(s[1..], c, rep);
      } else {
        ReplaceRemovesChar(s[1..], c, rep);
        assert s[0] != c;
      }
    }
  }

  /** The three replacements of wierszokleta.py:81-83: "ó" sounds as "u",
      "rz" as "ż", "ch" as "h". */
  function Normalize(w: string): string
  {
    Replace(Replace(Replace(w, "ó", "u"), "rz", "ż"), "ch", "h")
  }

  /** No "ó" is left after normalisation. */
  lemma NormalizeHasNoRoundedU(w: string)
    ensures 'ó' !in Normalize(w)
  {
    ReplaceRemovesChar(w, 'ó', "u");
    assert "ó" == ['ó'];
    var once := Replace(w, "ó", "u");
    ReplaceKeepsChars(once, "rz", "ż", 'ó');
    ReplaceKeepsChars(Replace(once, "rz", "ż"), "ch", "h", 'ó');
  }

  /** Python's `s[-3:]`: the last three characters, or all of a shorter text. */
  function Ending(s: string): string
  {
    if |s| <= 3 then s else s[|s| - 3..]
  }

  /** `wordsRhyme` (wierszokleta.py:80-87). */
  predicate WordsRhyme(word1: string, word2: string)
  {
    Ending(Normalize(word1)) == Ending(Normalize(word2))
  }

  /** Both words go through the same normalisation, so the test is symmetric. */
  lemma WordsRhymeSymmetric(word1: string, word2: string)
    ensures WordsRhyme(word1, word2) == WordsRhyme(word2, word1)
  {
  }

  /** The test compares one key per word, so it is also reflexive and transitive. */
  lemma WordsRhymeTransitive(word1: string, word2: string, word3: string)
    ensures WordsRhyme(word1, word1)
    ensures WordsRhyme(word1, word2) && WordsRhyme(word2, word3) ==> WordsRhyme(word1, word3)
  {
  }

  /** `pat` occurs nowhere in `s`. */
  predicate NoMatch(s: string, pat: string)
    requires |pat| > 0
    decreases |s|
  {
    |s| < |pat| || (s[..|pat|] != pat && NoMatch(s[1..], pat))
  }

  /** A text in which the pattern never occurs is left as it is. */
  lemma {:induction false} ReplaceNoMatch(s: string, pat: string, rep: string)
    requires |pat| > 0 && NoMatch(s, pat)
    ensures Replace(s, pat, rep) == s
    decreases |s|
  {
    if |s| >= |pat| {
      ReplaceNoMatch(s[1..], pat, rep);
      assert [s[0]] + s[1..] == s;
    }
  }

  /** A pattern whose first character is absent never occurs. */
  lemma {:induction false} NoMatchWithoutFirst(s: string, pat: string)
    requires |pat| > 0 && pat[0] !in s
    ensures NoMatch(s, pat)
    decreases |s|
  {
    if |s| >= |pat| {
      assert s[..|pat|][0] == s[0];
      NoMatchWithoutFirst(s[1..], pat);
    }
  }

  /** A word holding none of 'ó', 'r' and 'c' is its own normalisation. */
  lemma NormalizePlain(w: string)
    requires 'ó' !in w && 'r' !in w && 'c' !in w
    ensures Normalize(w) == w
  {
    NoMatchWithoutFirst(w, "ó");
    NoMatchWithoutFirst(w, "rz");
    NoMatchWithoutFirst(w, "ch");
    ReplaceNoMatch(w, "ó", "u");
    ReplaceNoMatch(w, "rz", "ż");
    ReplaceNoMatch(w, "ch", "h");
  }

  /** "rz" is replaced by "ż" in "morze". */
  lemma ReplaceRzInMorze()
    ensures Replace("morze", "rz", "ż") == "może"
  {
    assert "morze"[1..] == "orze" && "orze"[1..] == "rze" && "rze"[2..] == "e";
    assert "morze"[..2] != "rz" && "orze"[..2] != "rz" && "rze"[..2] == "rz";
  }

  /** "rz" and "ż" are the same sound: "morze" rhymes with "może". */
  lemma MorzeRhymesWithMoze()
    ensures WordsRhyme("morze", "może")
  {
    NoMatchWithoutFirst("morze", "ó");
    ReplaceNoMatch("morze", "ó", "u");
    ReplaceRzInMorze();
    NoMatchWithoutFirst("może", "ch");
    ReplaceNoMatch("może", "ch", "h");
    NormalizePlain("może");
  }

  /** Only the last three letters count: "kot" and "płot" share "ot" yet do
      not rhyme, since "kot" differs from "łot". */
  lemma KotDoesNotRhymeWithPlot()
    ensures !WordsRhyme("kot", "płot")
  {
    assert Ending("płot") == "łot";
    assert "kot"[0] != "łot"[0];
    PlainRhyme("kot", "płot");
  }

  /** Words that normalisation leaves alone rhyme exactly when their last
      three letters agree. */
  lemma PlainRhyme(word1: string, word2: string)
    requires 'ó' !in word1 && 'r' !in word1 && 'c' !in word1
    requires 'ó' !in word2 && 'r' !in word2 && 'c' !in word2
    ensures WordsRhyme(word1, word2) <==> Ending(word1) == Ending(word2)
  {
    NormalizePlain(word1);
    NormalizePlain(word2);
  }

  // ---------------------------------------------------------------------------
  // Rhyme classes.

  /** The class of `w`: a default dictionary of sets reads an absent key as empty. */
  function Get(m: map<Word, set<Word>>, w: Word): set<Word>
  {
    if w in m then m[w] else {}
  }

  ghost predicate Irreflexive(m: map<Word, set<Word>>)
  {
    forall w :: w !in Get(m, w)
  }

  ghost predicate Symmetric(m: map<Word, set<Word>>)
  {
    forall a, b :: b in Get(m, a) ==> a in Get(m, b)
  }

  ghost predicate Transitive(m: map<Word, set<Word>>)
  {
    forall a, b, c :: b in Get(m, a) && c in Get(m, b) && c != a ==> c in Get(m, a)
  }

  /** The classes encode an equivalence relation on distinct words: every word
      rhymes with the other members of its class and with nothing else. */
  ghost predicate IsRhymeRelation(m: map<Word, set<Word>>)
  {
    Irreflexive(m) && Symmetric(m) && Transitive(m)
  }

  /** `m2` has every key and every class member of `m1`. */
  ghost predicate Grows(m1: map<Word, set<Word>>, m2: map<Word, set<Word>>)
  {
    m1.Keys <= m2.Keys && forall w :: Get(m1, w) <= Get(m2, w)
  }

  /** The class of `w` after `transitiveSymmetricAdd(word1, word2)`
      (wierszokleta.py:89-104): every member of `word1`'s class, and `word1`
      itself, gains `word2` and its class; every member of `word2`'s class, and
      `word2` itself, gains `word1` and its class. */
  function MergedClass(m: map<Word, set<Word>>, word1: Word, word2: Word, w: Word): set<Word>
  {
    Get(m, w)
    + (if w in Get(m, word1) || w == word1 then Get(m, word2) + {word2} else {})
    + (if w in Get(m, word2) || w == word2 then Get(m, word1) + {word1} else {})
  }

  /** `r` is `m` after the merge: the keys read or written, each with its merged class. */
  ghost predicate IsMerge(m: map<Word, set<Word>>, word1: Word, word2: Word, r: map<Word, set<Word>>)
  {
    && r.Keys == m.Keys + Get(m, word1) + Get(m, word2) + {word1, word2}
    && forall w :: Get(r, w) == MergedClass(m, word1, word2, w)
  }

  /** Two maps with the same keys and the same classes are equal. */
  lemma SameClasses(m1: map<Word, set<Word>>, m2: map<Word, set<Word>>)
    requires m1.Keys == m2.Keys
    requires forall w :: Get(m1, w) == Get(m2, w)
    ensures m1 == m2
  {
    forall w | w in m1 ensures m1[w] == m2[w] {
      assert Get(m1, w) == Get(m2, w);
    }
  }

  /** The merge determines the new dictionary completely. */
  lemma MergeIsDeterministic(m: map<Word, set<Word>>, word1: Word, word2: Word, r1: map<Word, set<Word>>, r2: map<Word, set<Word>>)
    requires IsMerge(m, word1, word2, r1) && IsMerge(m, word1, word2, r2)
    ensures r1 == r2
  {
    forall w ensures Get(r1, w) == Get(r2, w) {
      assert Get(r1, w) == MergedClass(m, word1, word2, w);
    }
    SameClasses(r1, r2);
  }

  /** After the merge the two words are in each other's class, nothing was
      removed, and only the words of the two classes changed. */
  lemma MergeLinksOnlyTheTwoClasses(m: map<Word, set<Word>>, word1: Word, word2: Word, r: map<Word, set<Word>>)
    requires IsMerge(m, word1, word2, r)
    ensures word2 in Get(r, word1) && word1 in Get(r, word2)
    ensures Grows(m, r)
    ensures forall w :: w !in Get(m, word1) && w !in Get(m, word2) && w != word1 && w != word2 ==>
      Get(r, w) == Get(m, w)
  {
    assert Get(r, word1) == MergedClass(m, word1, word2, word1);
    assert Get(r, word2) == MergedClass(m, word1, word2, word2);
    forall w ensures Get(m, w) <= Get(r, w) {
      assert Get(r, w) == MergedClass(m, word1, word2, w);
    }
  }

  /** Under the invariant, a word's class together with the word is the same
      set seen from each of its members. */
  lemma ClassOfMember(m: map<Word, set<Word>>, w: Word, x: Word)
    requires IsRhymeRelation(m)
    requires x == w || x in Get(m, w)
    ensures Get(m, x) == ({w} + Get(m, w)) - {x}
  {
    if x != w {
      forall y | y in Get(m, x) ensures y in ({w} + Get(m, w)) - {x} {
        assert y != x;
        if y != w {
          assert y in Get(m, w);
        }
      }
      forall y | y in ({w} + Get(m, w)) - {x} ensures y in Get(m, x) {
        assert w in Get(m, x);
        if y != w {
          assert y in Get(m, w) && w in Get(m, x);
        }
      }
    }
  }

  /** Merging two distinct classes keeps the invariant, and the merged class is
      the union of the two: each of its members rhymes with all the others. */
  lemma MergePreservesRhymeRelation(m: map<Word, set<Word>>, word1: Word, word2: Word, r: map<Word, set<Word>>)
    requires IsRhymeRelation(m) && IsMerge(m, word1, word2, r)
    requires word1 != word2 && word2 !in Get(m, word1)
    ensures IsRhymeRelation(r)
    ensures var union := {word1, word2} + Get(m, word1) + Get(m, word2);
      forall w :: w in union ==> Get(r, w) == union - {w}
  {
    var e1, e2 := {word1} + Get(m, word1), {word2} + Get(m, word2);
    var union := {word1, word2} + Get(m, word1) + Get(m, word2);
    assert union == e1 + e2;
    assert e1 !! e2 by {
      forall x | x in e1 ensures x !in e2 {
        if x in e2 {
          ClassOfMember(m, word1, x);
          ClassOfMember(m, word2, x);
        }
      }
    }
    forall w | w in union ensures Get(r, w) == union - {w} {
      assert Get(r, w) == MergedClass(m, word1, word2, w);
      if w in e1 {
        ClassOfMember(m, word1, w);
        assert w !in e2;
      } else {
        ClassOfMember(m, word2, w);
        assert w !in e1;
      }
    }
    forall w | w !in union ensures Get(r, w) == Get(m, w) && Get(m, w) !! union {
      assert Get(r, w) == MergedClass(m, word1, word2, w);
      forall x | x in Get(m, w) ensures x !in union {
        if x in e1 {
          ClassOfMember(m, word1, x);
        } else if x in e2 {
          ClassOfMember(m, word2, x);
        }
      }
    }
    forall a, b | b in Get(r, a) ensures a in Get(r, b) {
      if a in union {
        assert b in union;
      } else {
        assert b !in union;
      }
    }
    forall a, b, c | b in Get(r, a) && c in Get(r, b) && c != a ensures c in Get(r, a) {
      if a in union {
        assert b in union;
      } else {
        assert b !in union;
      }
    }
    forall w ensures w !in Get(r, w) {
      if w in union {
      } else {
      }
    }
  }

  /** Every word of a class rhymes with the word it belongs to. */
  ghost predicate ClassesRhyme(m: map<Word, set<Word>>)
  {
    forall w: Word, v: Word :: v in Get(m, w) ==> WordsRhyme(w, v)
  }

  /** A word rhymes with every member of its class, both ways round. */
  lemma RhymeInClass(m: map<Word, set<Word>>, w: Word, x: Word)
    requires ClassesRhyme(m) && (x == w || x in Get(m, w))
    ensures WordsRhyme(w, x) && WordsRhyme(x, w)
  {
    WordsRhymeTransitive(w, w, w);
    WordsRhymeSymmetric(w, x);
  }

  /** Merging the classes of two rhyming words (the guard at
      wierszokleta.py:119) adds only rhyming words to any class. */
  lemma MergeKeepsRhymes(m: map<Word, set<Word>>, word1: Word, word2: Word, r: map<Word, set<Word>>)
    requires ClassesRhyme(m) && IsMerge(m, word1, word2, r) && WordsRhyme(word1, word2)
    ensures ClassesRhyme(r)
  {
    forall w: Word, v: Word | v in Get(r, w) ensures WordsRhyme(w, v) {
      assert Get(r, w) == MergedClass(m, word1, word2, w);
      if v in Get(m, w) {
      } else if (w in Get(m, word1) || w == word1) && (v in Get(m, word2) || v == word2) {
        RhymeInClass(m, word1, w);
        RhymeInClass(m, word2, v);
        WordsRhymeTransitive(w, word1, word2);
        WordsRhymeTransitive(w, word2, v);
      } else {
        RhymeInClass(m, word2, w);
        RhymeInClass(m, word1, v);
        WordsRhymeSymmetric(word1, word2);
        WordsRhymeTransitive(w, word2, word1);
        WordsRhymeTransitive(w, word1, v);
      }
    }
  }

  /** `c` is `m` after the words of `done1` gained `extra1` and the words of
      `done2` gained `extra2`. */
  ghost predicate Passed(m: map<Word, set<Word>>, c: map<Word, set<Word>>,
                         done1: set<Word>, extra1: set<Word>, done2: set<Word>, extra2: set<Word>)
  {
    && c.Keys == m.Keys + done1 + done2
    && forall w :: Get(c, w) == Get(m, w) + (if w in done1 then extra1 else {}) + (if w in done2 then extra2 else {})
  }

  /** One step of the first loop of `transitiveSymmetricAdd` (wierszokleta.py:93-95):
      `k` gains `a` and then `b`. */
  lemma GainFirst(m: map<Word, set<Word>>, c: map<Word, set<Word>>,
                  done1: set<Word>, extra1: set<Word>, done2: set<Word>, extra2: set<Word>,
                  k: Word, a: set<Word>, b: set<Word>)
    requires Passed(m, c, done1, extra1, done2, extra2) && a + b == extra1
    ensures var c1 := c[k := Get(c, k) + a];
      Passed(m, c1[k := c1[k] + b], done1 + {k}, extra1, done2, extra2)
  {
    GainTwice(c, k, a, b);
    var c1 := c[k := Get(c, k) + a];
    PassedFirst(m, c, c1[k := c1[k] + b], done1, extra1, done2, extra2, k);
  }

  /** One step of the second loop (wierszokleta.py:97-99). */
  lemma GainSecond(m: map<Word, set<Word>>, c: map<Word, set<Word>>,
                   done1: set<Word>, extra1: set<Word>, done2: set<Word>, extra2: set<Word>,
                   k: Word, a: set<Word>, b: set<Word>)
    requires Passed(m, c, done1, extra1, done2, extra2) && a + b == extra2
    ensures var c1 := c[k := Get(c, k) + a];
      Passed(m, c1[k := c1[k] + b], done1, extra1, done2 + {k}, extra2)
  {
    GainTwice(c, k, a, b);
    var c1 := c[k := Get(c, k) + a];
    PassedSecond(m, c, c1[k := c1[k] + b], done1, extra1, done2, extra2, k);
  }

  /** Adding `a` and then `b` to the class of `k` changes no other class. */
  lemma GainTwice(c: map<Word, set<Word>>, k: Word, a: set<Word>, b: set<Word>)
    ensures var c1 := c[k := Get(c, k) + a];
      && c1[k := c1[k] + b].Keys == c.Keys + {k}
      && forall w :: Get(c1[k := c1[k] + b], w) == Get(c, w) + (if w == k then a + b else {})
  {
  }

  lemma PassedFirst(m: map<Word, set<Word>>, c: map<Word, set<Word>>, c2: map<Word, set<Word>>,
                    done1: set<Word>, extra1: set<Word>, done2: set<Word>, extra2: set<Word>, k: Word)
    requires Passed(m, c, done1, extra1, done2, extra2)
    requires c2.Keys == c.Keys + {k} && forall w :: Get(c2, w) == Get(c, w) + (if w == k then extra1 else {})
    ensures Passed(m, c2, done1 + {k}, extra1, done2, extra2)
  {
    forall w ensures Get(c2, w) == Get(m, w) + (if w in done1 + {k} then extra1 else {}) + (if w in done2 then extra2 else {}) {
      assert Get(c, w) == Get(m, w) + (if w in done1 then extra1 else {}) + (if w in done2 then extra2 else {});
    }
  }

  lemma PassedSecond(m: map<Word, set<Word>>, c: map<Word, set<Word>>, c2: map<Word, set<Word>>,
                     done1: set<Word>, extra1: set<Word>, done2: set<Word>, extra2: set<Word>, k: Word)
    requires Passed(m, c, done1, extra1, done2, extra2)
    requires c2.Keys == c.Keys + {k} && forall w :: Get(c2, w) == Get(c, w) + (if w == k then extra2 else {})
    ensures Passed(m, c2, done1, extra1, done2 + {k}, extra2)
  {
    forall w ensures Get(c2, w) == Get(m, w) + (if w in done1 then extra1 else {}) + (if w in done2 + {k} then extra2 else {}) {
      assert Get(c, w) == Get(m, w) + (if w in done1 then extra1 else {}) + (if w in done2 then extra2 else {});
    }
  }

  /** A step of the first loop, with the words done written as those of
      `rhymes` not yet to do. */
  lemma GainFirstOf(m: map<Word, set<Word>>, c: map<Word, set<Word>>, rhymes: set<Word>, todo: set<Word>,
                    extra1: set<Word>, done2: set<Word>, extra2: set<Word>, k: Word, a: set<Word>, b: set<Word>)
    requires todo <= rhymes && k in todo
    requires Passed(m, c, rhymes - todo, extra1, done2, extra2) && a + b == extra1
    ensures var c1 := c[k := Get(c, k) + a];
      Passed(m, c1[k := c1[k] + b], rhymes - (todo - {k}), extra1, done2, extra2)
  {
    GainFirst(m, c, rhymes - todo, extra1, done2, extra2, k, a, b);
    assert rhymes - todo + {k} == rhymes - (todo - {k});
  }

  /** A step of the second loop, in the same terms. */
  lemma GainSecondOf(m: map<Word, set<Word>>, c: map<Word, set<Word>>, rhymes: set<Word>, todo: set<Word>,
                     done1: set<Word>, extra1: set<Word>, extra2: set<Word>, k: Word, a: set<Word>, b: set<Word>)
    requires todo <= rhymes && k in todo
    requires Passed(m, c, done1, extra1, rhymes - todo, extra2) && a + b == extra2
    ensures var c1 := c[k := Get(c, k) + a];
      Passed(m, c1[k := c1[k] + b], done1, extra1, rhymes - (todo - {k}), extra2)
  {
    GainSecond(m, c, done1, extra1, rhymes - todo, extra2, k, a, b);
    assert rhymes - todo + {k} == rhymes - (todo - {k});
  }

  /** `Passed` depends on the sets, not on how they are written. */
  lemma PassedSame(m: map<Word, set<Word>>, c: map<Word, set<Word>>,
                   done1: set<Word>, done1': set<Word>, extra1: set<Word>,
                   done2: set<Word>, done2': set<Word>, extra2: set<Word>)
    requires Passed(m, c, done1, extra1, done2, extra2)
    requires done1 == done1' && done2 == done2'
    ensures Passed(m, c, done1', extra1, done2', extra2)
  {
  }

  /** When the class of `word1` and `word1` have gained `word2` and its class,
      and the class of `word2` and `word2` have gained `word1` and its class,
      the result is the merge. */
  lemma PassedIsMerge(m: map<Word, set<Word>>, word1: Word, word2: Word, c: map<Word, set<Word>>)
    requires var rhymes1, rhymes2 := Get(m, word1), Get(m, word2);
      Passed(m, c, rhymes1 + {word1}, rhymes2 + {word2}, rhymes2 + {word2}, rhymes1 + {word1})
    ensures IsMerge(m, word1, word2, c)
  {
    var rhymes1, rhymes2 := Get(m, word1), Get(m, word2);
    forall w ensures Get(c, w) == MergedClass(m, word1, word2, w) {
      assert w in rhymes1 + {word1} <==> w in rhymes1 || w == word1;
      assert w in rhymes2 + {word2} <==> w in rhymes2 || w == word2;
    }
  }

  /** Growth is transitive. */
  lemma GrowsTransitive(m1: map<Word, set<Word>>, m2: map<Word, set<Word>>, m3: map<Word, set<Word>>)
    requires Grows(m1, m2) && Grows(m2, m3)
    ensures Grows(m1, m3)
  {
    forall w ensures Get(m1, w) <= Get(m3, w) {
      assert Get(m1, w) <= Get(m2, w);
    }
  }

  // ---------------------------------------------------------------------------
  // Collecting rhymes from a text.

  /** The last word of each list that has words. */
  function LastOfEach(wordLists: seq<seq<Word>>): (r: seq<Word>)
    ensures |r| <= |wordLists|
  {
    if wordLists == [] then []
    else
      var words := wordLists[|wordLists| - 1];
      LastOfEach(wordLists[..|wordLists| - 1]) + (if words == [] then [] else [words[|words| - 1]])
  }

  /** The last word of every non-empty line (wierszokleta.py:110-114). */
  function LastWords(lines: seq<string>): seq<Word>
  {
    LastOfEach(WordLists(lines))
  }

  /** Taking one more list adds its last word, if it has one. */
  lemma LastOfEachOneMore(wordLists: seq<seq<Word>>, l: nat)
    requires l < |wordLists|
    ensures LastOfEach(wordLists[..l + 1]) ==
      LastOfEach(wordLists[..l]) + (if wordLists[l] == [] then [] else [wordLists[l][|wordLists[l]| - 1]])
  {
    assert wordLists[..l + 1][..l] == wordLists[..l];
  }

  /** Line endings `i` and `j` are one to three non-empty lines apart, differ,
      and rhyme: `findRhymes` links exactly such pairs (wierszokleta.py:115-119). */
  predicate NearbyRhyme(lastWords: seq<Word>, i: int, j: int)
  {
    0 <= i < j < |lastWords| && j <= i + 3
    && lastWords[i] != lastWords[j] && WordsRhyme(lastWords[i], lastWords[j])
  }

  /** The index pairs `findRhymes` has to link. */
  ghost function NearbyPairs(lastWords: seq<Word>): set<(int, int)>
  {
    set a, b | 0 <= a < b < |lastWords| && NearbyRhyme(lastWords, a, b) :: (a, b)
  }

  /** The pairs of `near` are ordered, at most three apart and inside `lastWords`. */
  ghost predicate Close(near: set<(int, int)>, lastWords: seq<Word>)
  {
    forall a, b :: (a, b) in near ==> 0 <= a < b < |lastWords| && b <= a + 3
  }

  lemma NearbyPairsSpec(lastWords: seq<Word>)
    ensures Close(NearbyPairs(lastWords), lastWords)
    ensures forall a, b :: (a, b) in NearbyPairs(lastWords) <==> NearbyRhyme(lastWords, a, b)
  {
  }

  /** Every pair `(a, b)` of `near` visited before `(i, j)` is linked in `m`. */
  ghost predicate LinkedUpTo(near: set<(int, int)>, lastWords: seq<Word>, m: map<Word, set<Word>>, i: int, j: int)
    requires Close(near, lastWords)
  {
    forall a, b :: (a, b) in near && (a < i || (a == i && b < j)) ==> lastWords[b] in Get(m, lastWords[a])
  }

  /** Visiting `(i, j)` keeps the earlier links, since classes only grow, and adds its own. */
  lemma LinkedStep(near: set<(int, int)>, lastWords: seq<Word>, m1: map<Word, set<Word>>, m2: map<Word, set<Word>>, i: int, j: int)
    requires Close(near, lastWords)
    requires LinkedUpTo(near, lastWords, m1, i, j) && Grows(m1, m2)
    requires (i, j) in near ==> lastWords[j] in Get(m2, lastWords[i])
    ensures LinkedUpTo(near, lastWords, m2, i, j + 1)
  {
    forall a, b | (a, b) in near && (a < i || (a == i && b < j + 1))
      ensures lastWords[b] in Get(m2, lastWords[a])
    {
      if a < i || b < j {
        GrowsAt(m1, m2, lastWords[a], lastWords[b]);
      }
    }
  }

  lemma GrowsAt(m1: map<Word, set<Word>>, m2: map<Word, set<Word>>, w: Word, v: Word)
    requires Grows(m1, m2) && v in Get(m1, w)
    ensures v in Get(m2, w)
  {
  }

  /** What `findRhymes` keeps across one merge: the classes only grow, the
      invariant holds, and the two words end up linked. */
  lemma MergeStep(m0: map<Word, set<Word>>, before: map<Word, set<Word>>, after: map<Word, set<Word>>,
                  word1: Word, word2: Word)
    requires IsMerge(before, word1, word2, after)
    requires Grows(m0, before) && (IsRhymeRelation(m0) ==> IsRhymeRelation(before))
    requires word1 != word2 && word2 !in Get(before, word1)
    requires WordsRhyme(word1, word2) && (ClassesRhyme(m0) ==> ClassesRhyme(before))
    ensures Grows(m0, after) && (IsRhymeRelation(m0) ==> IsRhymeRelation(after))
    ensures ClassesRhyme(m0) ==> ClassesRhyme(after)
    ensures Grows(before, after) && word2 in Get(after, word1)
  {
    MergeLinksOnlyTheTwoClasses(before, word1, word2, after);
    GrowsTransitive(m0, before, after);
    if IsRhymeRelation(m0) {
      MergePreservesRhymeRelation(before, word1, word2, after);
    }
    if ClassesRhyme(m0) {
      MergeKeepsRhymes(before, word1, word2, after);
    }
  }

  /** Past the last `j` of row `i` no pair of that row is nearby. */
  lemma LinkedNextRow(near: set<(int, int)>, lastWords: seq<Word>, m: map<Word, set<Word>>, i: int)
    requires Close(near, lastWords) && LinkedUpTo(near, lastWords, m, i, Min(i + 4, |lastWords|))
    ensures LinkedUpTo(near, lastWords, m, i + 1, i + 2)
  {
  }

  /** After the last row, every nearby rhyming pair has been linked, in both
      directions when the classes are symmetric. */
  lemma LinkedAll(lastWords: seq<Word>, m: map<Word, set<Word>>, i: int)
    requires Close(NearbyPairs(lastWords), lastWords)
    requires LinkedUpTo(NearbyPairs(lastWords), lastWords, m, i, i + 1) && i >= |lastWords| - 1
    ensures forall a, b :: NearbyRhyme(lastWords, a, b) ==> lastWords[b] in Get(m, lastWords[a])
    ensures IsRhymeRelation(m) ==>
      forall a, b :: NearbyRhyme(lastWords, a, b) ==> lastWords[a] in Get(m, lastWords[b])
  {
    NearbyPairsSpec(lastWords);
  }

  /** The words a pass of `findRhymes` over `lastWords` may touch: the last
      words themselves and the members of their classes in `m`. */
  function Touched(m: map<Word, set<Word>>, lastWords: seq<Word>): set<Word>
  {
    if lastWords == [] then {}
    else
      var w := lastWords[|lastWords| - 1];
      Touched(m, lastWords[..|lastWords| - 1]) + {w} + Get(m, w)
  }

  /** Every class of a member of `t` stays inside `t`. */
  ghost predicate ClosedIn(m: map<Word, set<Word>>, t: set<Word>)
  {
    forall x :: x in t ==> Get(m, x) <= t
  }

  /** Outside `t`, `m2` has the keys and the classes of `m1`. */
  ghost predicate FixedOutside(m1: map<Word, set<Word>>, m2: map<Word, set<Word>>, t: set<Word>)
  {
    forall x :: x !in t ==> Get(m2, x) == Get(m1, x) && (x in m2 <==> x in m1)
  }

  /** Every last word is touched, and under the invariant the touched words
      are closed under taking classes. */
  lemma {:induction false} TouchedSpec(m: map<Word, set<Word>>, lastWords: seq<Word>)
    ensures forall i :: 0 <= i < |lastWords| ==> lastWords[i] in Touched(m, lastWords)
    ensures IsRhymeRelation(m) ==> ClosedIn(m, Touched(m, lastWords))
  {
    if lastWords != [] {
      var init := lastWords[..|lastWords| - 1];
      var w := lastWords[|lastWords| - 1];
      var t := Touched(m, lastWords);
      TouchedSpec(m, init);
      forall i | 0 <= i < |lastWords| ensures lastWords[i] in t {
        if i < |init| {
          assert lastWords[i] == init[i];
        }
      }
      if IsRhymeRelation(m) {
        forall x | x in t ensures Get(m, x) <= t {
          if x !in Touched(m, init) {
            ClassOfMember(m, w, x);
          }
        }
      }
    }
  }

  /** A merge of two touched words inside a closed set changes nothing outside it. */
  lemma MergeInside(before: map<Word, set<Word>>, after: map<Word, set<Word>>, t: set<Word>, word1: Word, word2: Word)
    requires IsMerge(before, word1, word2, after) && word1 in t && word2 in t && ClosedIn(before, t)
    ensures ClosedIn(after, t) && FixedOutside(before, after, t)
  {
    forall x | x in t ensures Get(after, x) <= t {
      assert Get(after, x) == MergedClass(before, word1, word2, x);
    }
    forall x | x !in t ensures Get(after, x) == Get(before, x) && (x in after <==> x in before) {
      assert Get(after, x) == MergedClass(before, word1, word2, x);
    }
  }

  /** What `findRhymes` keeps outside the touched words across one merge. */
  lemma FrameStep(m0: map<Word, set<Word>>, before: map<Word, set<Word>>, after: map<Word, set<Word>>,
                  t: set<Word>, word1: Word, word2: Word)
    requires IsMerge(before, word1, word2, after) && word1 in t && word2 in t
    requires ClosedIn(m0, t) ==> ClosedIn(before, t) && FixedOutside(m0, before, t)
    ensures ClosedIn(m0, t) ==> ClosedIn(after, t) && FixedOutside(m0, after, t)
  {
    if ClosedIn(m0, t) {
      MergeInside(before, after, t, word1, word2);
    }
  }

  /** The loop of wierszokleta.py:109-114: the words of each non-empty line,
      then the last of them. */
  method LastWordsOf(lines: seq<string>) returns (lastWords: seq<Word>)
    ensures lastWords == LastWords(lines)
  {
    ghost var wordLists := WordLists(lines);
    lastWords := [];
    var l := 0;
    while l < |lines|
      invariant 0 <= l <= |lines|
      invariant lastWords == LastOfEach(wordLists[..l])
    {
      var wordsInLine := SplitWords(lines[l]);
      WordListsSpec(lines, l);
      LastOfEachOneMore(wordLists, l);
      if |wordsInLine| != 0 {
        lastWords := lastWords + [wordsInLine[|wordsInLine| - 1]];
      }
      l := l + 1;
    }
    assert wordLists[..l] == wordLists;
  }

  /** The rhyme classes, a dictionary that `findRhymes` updates in place. */
  class RhymeClasses {
    var classes: map<Word, set<Word>>

    /** A fresh, empty default dictionary (wierszokleta.py:288). */
    constructor ()
      ensures classes == map[]
      ensures IsRhymeRelation(classes) && ClassesRhyme(classes)
    {
      classes := map[];
    }

    /** `transitiveSymmetricAdd` (wierszokleta.py:89-104). */
    method TransitiveSymmetricAdd(word1: Word, word2: Word)
      modifies this
      ensures IsMerge(old(classes), word1, word2, classes)
    {
      var rhymes1 := Get(classes, word1);
      var rhymes2 := Get(classes, word2);
      ghost var m0 := classes;
      ghost var extra1, extra2 := rhymes2 + {word2}, rhymes1 + {word1};

      var todo := rhymes1;
      PassedSame(m0, classes, {}, rhymes1 - todo, extra1, {}, {}, extra2);
      while todo != {}
        invariant todo <= rhymes1
        invariant Passed(m0, classes, rhymes1 - todo, extra1, {}, extra2)
        decreases todo
      {
        var word :| word in todo;
        GainFirstOf(m0, classes, rhymes1, todo, extra1, {}, extra2, word, rhymes2, {word2});
        classes := classes[word := Get(classes, word) + rhymes2];
        classes := classes[word := classes[word] + {word2}];
        todo := todo - {word};
      }
      PassedSame(m0, classes, rhymes1 - todo, rhymes1, extra1, {}, rhymes2 - rhymes2, extra2);

      todo := rhymes2;
      while todo != {}
        invariant todo <= rhymes2
        invariant Passed(m0, classes, rhymes1, extra1, rhymes2 - todo, extra2)
        decreases todo
      {
        var word :| word in todo;
        GainSecondOf(m0, classes, rhymes2, todo, rhymes1, extra1, extra2, word, rhymes1, {word1});
        classes := classes[word := Get(classes, word) + rhymes1];
        classes := classes[word := classes[word] + {word1}];
        todo := todo - {word};
      }
      PassedSame(m0, classes, rhymes1, rhymes1, extra1, rhymes2 - todo, rhymes2, extra2);

      GainFirst(m0, classes, rhymes1, extra1, rhymes2, extra2, word1, rhymes2, {word2});
      classes := classes[word1 := Get(classes, word1) + rhymes2];
      classes := classes[word1 := classes[word1] + {word2}];
      GainSecond(m0, classes, rhymes1 + {word1}, extra1, rhymes2, extra2, word2, rhymes1, {word1});
      classes := classes[word2 := Get(classes, word2) + rhymes1];
      classes := classes[word2 := classes[word2] + {word1}];
      PassedIsMerge(m0, word1, word2, classes);
    }

    /** `findRhymes` (wierszokleta.py:106-120): links the last words of
        non-empty lines one to three lines apart that rhyme. */
    method FindRhymes(text: string)
      modifies this
      ensures Grows(old(classes), classes)
      ensures var lastWords := LastWords(SplitLines(Lower(text)));
        forall i, j :: NearbyRhyme(lastWords, i, j) ==> lastWords[j] in Get(classes, lastWords[i])
      ensures IsRhymeRelation(old(classes)) ==> IsRhymeRelation(classes)
      ensures var lastWords := LastWords(SplitLines(Lower(text)));
        IsRhymeRelation(old(classes)) ==>
          forall i, j :: NearbyRhyme(lastWords, i, j) ==> lastWords[i] in Get(classes, lastWords[j])
      ensures var touched := Touched(old(classes), LastWords(SplitLines(Lower(text))));
        IsRhymeRelation(old(classes)) ==> FixedOutside(old(classes), classes, touched) && ClosedIn(classes, touched)
      ensures ClassesRhyme(old(classes)) ==> ClassesRhyme(classes)
    {
      var lines := SplitLines(Lower(text));
      var lastWords := LastWordsOf(lines);

      ghost var near := NearbyPairs(lastWords);
      NearbyPairsSpec(lastWords);
      ghost var touched := Touched(classes, lastWords);
      TouchedSpec(classes, lastWords);
      var n := |lastWords|;
      var i := 0;
      while i < n - 1
        invariant 0 <= i && (i <= n - 1 || i == 0)
        invariant Grows(old(classes), classes)
        invariant IsRhymeRelation(old(classes)) ==> IsRhymeRelation(classes)
        invariant LinkedUpTo(near, lastWords, classes, i, i + 1)
        invariant ClosedIn(old(classes), touched) ==> ClosedIn(classes, touched) && FixedOutside(old(classes), classes, touched)
        invariant ClassesRhyme(old(classes)) ==> ClassesRhyme(classes)
      {
        var word1 := lastWords[i];
        var j := i + 1;
        while j < Min(i + 4, n)
          invariant i + 1 <= j <= Min(i + 4, n)
          invariant Grows(old(classes), classes)
          invariant IsRhymeRelation(old(classes)) ==> IsRhymeRelation(classes)
          invariant LinkedUpTo(near, lastWords, classes, i, j)
          invariant ClosedIn(old(classes), touched) ==> ClosedIn(classes, touched) && FixedOutside(old(classes), classes, touched)
          invariant ClassesRhyme(old(classes)) ==> ClassesRhyme(classes)
        {
          var word2 := lastWords[j];
          ghost var before := classes;
          if word1 != word2 && WordsRhyme(word1, word2) && word2 !in Get(classes, word1) {
            TransitiveSymmetricAdd(word1, word2);
            MergeStep(old(classes), before, classes, word1, word2);
            FrameStep(old(classes), before, classes, touched, word1, word2);
          }
          LinkedStep(near, lastWords, before, classes, i, j);
          j := j + 1;
        }
        LinkedNextRow(near, lastWords, classes, i);
        i := i + 1;
      }
      LinkedAll(lastWords, classes, i);
    }
  }

  function Min(a: int, b: int): int
  {
    if a < b then a else b
  }
}

=== FILE: syllables.dfy ===
/** The syllable counter (wierszokleta.py:143-162): the number of vowels of a
    text less the number of two-vowel digraphs that are pronounced as one. */
module Syllables {
  import opened Text

  /** The nine vowels counted (wierszokleta.py:147-155). */
  const Vowels: set<char> := {'a', 'ą', 'e', 'ę', 'i', 'o', 'ó', 'u', 'y'}

  /** The six digraphs subtracted (wierszokleta.py:156-161). */
  predicate IsDigraph(x: char, y: char)
  {
    [x, y] in ["au", "eu", "ia", "ie", "ią", "ię"]
  }

  /** Python's `str.count(sub)`: occurrences found scanning from the left,
      each search resuming after the previous match. */
  function Count(s: string, sub: string): nat
    requires |sub| > 0
    decreases |s|
  {
    if |s| < |sub| then 0
    else if s[..|sub|] == sub then 1 + Count(s[|sub|..], sub)
    else Count(s[1..], sub)
  }

  /** The letters whose occurrences are added (wierszokleta.py:147-155). */
  const VowelLetters: string := "aąeęioóuy"

  /** The letter pairs whose occurrences are subtracted (wierszokleta.py:156-161). */
  const DigraphPairs: seq<(char, char)> := [('a', 'u'), ('e', 'u'), ('i', 'a'), ('i', 'e'), ('i', 'ą'), ('i', 'ę')]

  /** `text.count(c)` for each letter `c` of `letters`, added up. */
  function CountLetters(text: string, letters: string): int
  {
    if letters == [] then 0 else Count(text, [letters[0]]) + CountLetters(text, letters[1..])
  }

  /** `text.count(xy)` for each pair `(x, y)` of `pairs`, added up. */
  function CountPairs(text: string, pairs: seq<(char, char)>): int
  {
    if pairs == [] then 0 else Count(text, [pairs[0].0, pairs[0].1]) + CountPairs(text, pairs[1..])
  }

  /** `numSyllables` (wierszokleta.py:146-162): the count of each vowel added,
      the count of each digraph subtracted. */
  function NumSyllables(text: string): int
  {
    CountLetters(text, VowelLetters) - CountPairs(text, DigraphPairs)
  }

  /** `numSyllablesOnList` (wierszokleta.py:143-144): the syllables of the words joined by spaces. */
  function NumSyllablesOnList(words: seq<string>): int
  {
    NumSyllables(Join(words, ' '))
  }

  // ---------------------------------------------------------------------------
  // Counting positions.

  /** The positions holding `c`. */
  function CharCount(s: string, c: char): nat
  {
    if s == [] then 0 else (if s[0] == c then 1 else 0) + CharCount(s[1..], c)
  }

  /** The positions `i` with `s[i] == x` and `s[i + 1] == y`. */
  function PairCount(s: string, x: char, y: char): nat
  {
    if |s| < 2 then 0 else (if s[0] == x && s[1] == y then 1 else 0) + PairCount(s[1..], x, y)
  }

  /** The positions holding a vowel. */
  function VowelCount(s: string): nat
  {
    if s == [] then 0 else (if s[0] in Vowels then 1 else 0) + VowelCount(s[1..])
  }

  /** The positions at which a digraph starts. */
  function DigraphCount(s: string): nat
  {
    if |s| < 2 then 0 else (if IsDigraph(s[0], s[1]) then 1 else 0) + DigraphCount(s[1..])
  }

  /** Counting a single character counts the positions holding it. */
  lemma {:induction false} CountChar(s: string, c: char)
    ensures Count(s, [c]) == CharCount(s, c)
  {
    if s != [] {
      CountChar(s[1..], c);
    }
  }

  /** A two-character pattern whose characters differ cannot overlap itself, so
      the non-overlapping count is the count of positions. */
  lemma {:induction false} CountTwoDistinct(s: string, x: char, y: char)
    requires x != y
    ensures Count(s, [x, y]) == PairCount(s, x, y)
  {
    if |s| >= 2 {
      if s[..2] == [x, y] {
        CountTwoDistinct(s[2..], x, y);
        assert s[1..][1..] == s[2..];
        assert PairCount(s[1..], x, y) == PairCount(s[2..], x, y);
      } else {
        CountTwoDistinct(s[1..], x, y);
      }
    }
  }

  lemma {:induction false} VowelCountIsSum(s: string)
    ensures VowelCount(s) == CharCount(s, 'a') + CharCount(s, 'ą') + CharCount(s, 'e')
      + CharCount(s, 'ę') + CharCount(s, 'i') + CharCount(s, 'o') + CharCount(s, 'ó')
      + CharCount(s, 'u') + CharCount(s, 'y')
  {
    if s != [] {
      VowelCountIsSum(s[1..]);
    }
  }

  lemma {:induction false} DigraphCountIsSum(s: string)
    ensures DigraphCount(s) == PairCount(s, 'a', 'u') + PairCount(s, 'e', 'u')
      + PairCount(s, 'i', 'a') + PairCount(s, 'i', 'e') + PairCount(s, 'i', 'ą')
      + PairCount(s, 'i', 'ę')
  {
    if |s| >= 2 {
      DigraphCountIsSum(s[1..]);
    }
  }

  lemma CountLettersStep(s: string, letters: string, i: nat)
    requires i < |letters|
    ensures CountLetters(s, letters[i..]) == CharCount(s, letters[i]) + CountLetters(s, letters[i + 1..])
  {
    assert letters[i..][1..] == letters[i + 1..];
    CountChar(s, letters[i]);
  }

  lemma CountPairsStep(s: string, pairs: seq<(char, char)>, i: nat)
    requires i < |pairs| && pairs[i].0 != pairs[i].1
    ensures CountPairs(s, pairs[i..]) == PairCount(s, pairs[i].0, pairs[i].1) + CountPairs(s, pairs[i + 1..])
  {
    assert pairs[i..][1..] == pairs[i + 1..];
    CountTwoDistinct(s, pairs[i].0, pairs[i].1);
  }

  lemma VowelLettersCount(s: string)
    ensures CountLetters(s, VowelLetters) == VowelCount(s)
  {
    var v := VowelLetters;
    assert v[0..] == v;
    CountLettersStep(s, v, 0); CountLettersStep(s, v, 1); CountLettersStep(s, v, 2);
    CountLettersStep(s, v, 3); CountLettersStep(s, v, 4);
    LastVowelsCount(s);
    VowelCountIsSum(s);
  }

  lemma LastVowelsCount(s: string)
    ensures CountLetters(s, VowelLetters[5..]) == CharCount(s, 'o') + CharCount(s, 'ó') + CharCount(s, 'u') + CharCount(s, 'y')
  {
    var v := VowelLetters;
    CountLettersStep(s, v, 5); CountLettersStep(s, v, 6); CountLettersStep(s, v, 7);
    CountLettersStep(s, v, 8);
    assert v[9..] == [];
  }

  lemma DigraphPairsCount(s: string)
    ensures CountPairs(s, DigraphPairs) == DigraphCount(s)
  {
    var d := DigraphPairs;
    CountPairsStep(s, d, 0); CountPairsStep(s, d, 1); CountPairsStep(s, d, 2);
    CountPairsStep(s, d, 3); CountPairsStep(s, d, 4); CountPairsStep(s, d, 5);
    assert d[6..] == [] && d[0..] == d;
    DigraphCountIsSum(s);
  }

  /** What `numSyllables` computes: vowels less digraph occurrences. */
  lemma NumSyllablesCounts(s: string)
    ensures NumSyllables(s) == VowelCount(s) - DigraphCount(s)
  {
    VowelLettersCount(s);
    DigraphPairsCount(s);
  }

  /** Every digraph starts with a vowel, so there are never more digraphs than vowels. */
  lemma {:induction false} DigraphsStartAtVowels(s: string)
    ensures DigraphCount(s) <= VowelCount(s)
  {
    if |s| >= 2 {
      DigraphsStartAtVowels(s[1..]);
    }
  }

  /** The syllable count is never negative. */
  lemma NumSyllablesNonNegative(s: string)
    ensures NumSyllables(s) >= 0
  {
    NumSyllablesCounts(s);
    DigraphsStartAtVowels(s);
  }

  lemma {:induction false} VowelCountAppend(a: string, b: string)
    ensures VowelCount(a + b) == VowelCount(a) + VowelCount(b)
  {
    if a == [] {
      assert a + b == b;
    } else {
      assert (a + b)[0] == a[0];
      assert (a + b)[1..] == a[1..] + b;
      VowelCountAppend(a[1..], b);
    }
  }

  /** A space is part of no digraph, so no digraph spans it. */
  lemma {:induction false} DigraphCountAcrossSpace(a: string, b: string)
    ensures DigraphCount(a + [' '] + b) == DigraphCount(a) + DigraphCount(b)
  {
    if a == [] {
      assert a + [' '] + b == [' '] + b;
      assert ([' '] + b)[1..] == b;
    } else {
      assert (a + [' '] + b)[1..] == a[1..] + [' '] + b;
      assert (a + [' '] + b)[0] == a[0];
      if |a| == 1 {
        assert (a + [' '] + b)[1] == ' ';
      } else {
        assert (a + [' '] + b)[1] == a[1];
      }
      DigraphCountAcrossSpace(a[1..], b);
    }
  }

  /** The syllables of two texts joined by a space add up. */
  lemma NumSyllablesAcrossSpace(a: string, b: string)
    ensures NumSyllables(a + [' '] + b) == NumSyllables(a) + NumSyllables(b)
  {
    NumSyllablesCounts(a + [' '] + b);
    NumSyllablesCounts(a);
    NumSyllablesCounts(b);
    VowelsAcrossSpace(a, b);
    DigraphCountAcrossSpace(a, b);
  }

  lemma VowelsAcrossSpace(a: string, b: string)
    ensures VowelCount(a + [' '] + b) == VowelCount(a) + VowelCount(b)
  {
    assert a + [' '] + b == a + ([' '] + b);
    VowelCountAppend(a, [' '] + b);
    VowelCountAppend([' '], b);
    assert VowelCount([' ']) == 0;
  }

  /** The syllables of the words, added up. */
  function SumSyllables(words: seq<string>): int
  {
    if words == [] then 0 else NumSyllables(words[0]) + SumSyllables(words[1..])
  }

  /** The syllables of a line are the sum over its words: joining with a space
      adds no vowel and creates no digraph. */
  lemma {:induction false} NumSyllablesOnListIsSum(words: seq<string>)
    ensures NumSyllablesOnList(words) == SumSyllables(words)
  {
    if words == [] {
      NumSyllablesCounts([]);
    } else if |words| == 1 {
      assert SumSyllables(words[1..]) == 0;
    } else {
      NumSyllablesOnListIsSum(words[1..]);
      var tail := Join(words[1..], ' ');
      assert Join(words, ' ') == words[0] + [' '] + tail;
      NumSyllablesAcrossSpace(words[0], tail);
    }
  }

  /** Each word has a non-negative count, so a line never has fewer syllables
      than any of its suffixes. */
  lemma {:induction false} SyllablesOfSuffix(words: seq<string>, k: nat)
    requires k <= |words|
    ensures NumSyllablesOnList(words[k..]) <= NumSyllablesOnList(words)
  {
    NumSyllablesOnListIsSum(words);
    NumSyllablesOnListIsSum(words[k..]);
    SumOfSuffix(words, k);
  }

  lemma {:induction false} SumOfSuffix(words: seq<string>, k: nat)
    requires k <= |words|
    ensures SumSyllables(words[k..]) <= SumSyllables(words)
  {
    if k > 0 {
      NumSyllablesNonNegative(words[0]);
      assert words[1..][k - 1..] == words[k..];
      SumOfSuffix(words[1..], k - 1);
    }
  }

  lemma KotHasOneSyllable()
    ensures NumSyllables("kot") == 1
  {
    assert "kot"[1..] == "ot" && "ot"[1..] == "t" && "t"[1..] == "";
    assert VowelCount("kot") == 1;
    assert DigraphCount("kot") == 0;
    NumSyllablesCounts("kot");
  }

  lemma MamaHasTwoSyllables()
    ensures NumSyllables("mama") == 2
  {
    assert "mama"[1..] == "ama" && "ama"[1..] == "ma" && "ma"[1..] == "a" && "a"[1..] == "";
    assert VowelCount("mama") == 2;
    assert DigraphCount("mama") == 0;
    NumSyllablesCounts("mama");
  }

  /** "miasto" has three vowels and the digraph "ia". */
  lemma MiastoCounts()
    ensures VowelCount("miasto") == 3 && DigraphCount("miasto") == 1
  {
    MiastoVowels();
    MiastoDigraphs();
  }

  lemma MiastoVowels()
    ensures VowelCount("miasto") == 3
  {
    assert "miasto"[1..] == "iasto" && "iasto"[1..] == "asto" && "asto"[1..] == "sto";
    assert "sto"[1..] == "to" && "to"[1..] == "o" && "o"[1..] == "";
    assert VowelCount("sto") == 1;
  }

  lemma MiastoDigraphs()
    ensures DigraphCount("miasto") == 1
  {
    assert "miasto"[1..] == "iasto" && "iasto"[1..] == "asto" && "asto"[1..] == "sto";
    assert "sto"[1..] == "to" && "to"[1..] == "o";
    assert DigraphCount("sto") == 0 && DigraphCount("asto") == 0;
    assert IsDigraph('i', 'a') && !IsDigraph('m', 'i');
  }

  /** The syllables of a line whatever the case of its letters: the count of
      the lower-cased text. */
  function NumSyllablesIgnoringCase(words: seq<string>): int
  {
    NumSyllables(Lower(Join(words, ' ')))
  }

  /** The digraph "ia" is one syllable: "miasto" has two. */
  lemma MiastoHasTwoSyllables()
    ensures NumSyllables("miasto") == 2
  {
    MiastoCounts();
    NumSyllablesCounts("miasto");
  }
}

=== FILE: text.dfy ===
/** Character- and string-level operations that the generator relies on:
    the character classes it splits on, a fixed letter-case table, removal
    of characters, splitting on a character class (regular-expression split,
    `str.split()` and `str.splitlines()`), and joining words with a space. */
module Text {

  datatype Option<T> = None | Some(value: T)

  /** Every word of the generator comes out of a whitespace split, so it is never empty. */
  type Word = s: string | |s| > 0 witness "a"

  /** A line of a poem: the words it consists of, left to right. */
  type Line = seq<Word>

  /** The characters that end a sentence (wierszokleta.py:32). */
  const SentenceSeparators: seq<char> := ".!?…;:()"

  const SentenceSeparatorSet: set<char> := set c | c in SentenceSeparators

  /** The characters `str.split()` treats as whitespace. */
  const WhitespaceChars: string :=
    " \t\n\r\U{B}\U{C}\U{1C}\U{1D}\U{1E}\U{1F}\U{85}\U{A0}\U{1680}\U{2000}\U{2001}\U{2002}\U{2003}"
    + "\U{2004}\U{2005}\U{2006}\U{2007}\U{2008}\U{2009}\U{200A}\U{2028}\U{2029}\U{202F}\U{205F}\U{3000}"

  const Whitespace: set<char> := set c | c in WhitespaceChars

  /** The characters `str.splitlines()` treats as line boundaries. */
  const LineBreakChars: string := "\n\r\U{B}\U{C}\U{1C}\U{1D}\U{1E}\U{85}\U{2028}\U{2029}"

  const LineBreaks: set<char> := set c | c in LineBreakChars

  // ---------------------------------------------------------------------------
  // Letter case. The table covers the Latin alphabet and the nine Polish
  // diacritic letters; every other character is caseless.

  const UpperPolish: string := "ĄĆĘŁŃÓŚŹŻ"
  const LowerPolish: string := "ąćęłńóśźż"

  predicate IsUpper(c: char) {
    ('A' <= c <= 'Z') || c in UpperPolish
  }

  predicate IsLower(c: char) {
    ('a' <= c <= 'z') || c in LowerPolish
  }

  function LowerChar(c: char): (r: char)
    ensures !IsUpper(c) ==> r == c
    ensures IsUpper(c) ==> IsLower(r)
  {
    if 'A' <= c <= 'Z' then (c as int + 32) as char
    else if c == 'Ą' then 'ą' else if c == 'Ć' then 'ć' else if c == 'Ę' then 'ę'
    else if c == 'Ł' then 'ł' else if c == 'Ń' then 'ń' else if c == 'Ó' then 'ó'
    else if c == 'Ś' then 'ś' else if c == 'Ź' then 'ź' else if c == 'Ż' then 'ż'
    else c
  }

  function UpperChar(c: char): (r: char)
    ensures !IsLower(c) ==> r == c
    ensures IsLower(c) ==> IsUpper(r)
  {
    if 'a' <= c <= 'z' then (c as int - 32) as char
    else if c == 'ą' then 'Ą' else if c == 'ć' then 'Ć' else if c == 'ę' then 'Ę'
    else if c == 'ł' then 'Ł' else if c == 'ń' then 'Ń' else if c == 'ó' then 'Ó'
    else if c == 'ś' then 'Ś' else if c == 'ź' then 'Ź' else if c == 'ż' then 'Ż'
    else c
  }

  /** `str.lower()`. */
  function Lower(s: string): (r: string)
    ensures |r| == |s|
    ensures forall i :: 0 <= i < |s| ==> r[i] == LowerChar(s[i])
  {
    seq(|s|, i requires 0 <= i < |s| => LowerChar(s[i]))
  }

  /** `str.capitalize()`: first character upper case, the rest lower case. */
  function Capitalize(w: Word): (r: Word)
    ensures |r| == |w|
    ensures r[0] == UpperChar(w[0]) && r[1..] == Lower(w[1..])
  {
    [UpperChar(w[0])] + Lower(w[1..])
  }

  lemma {:induction false} LowerAppend(a: string, b: string)
    ensures Lower(a + b) == Lower(a) + Lower(b)
  {
    assert forall i :: 0 <= i < |a + b| ==> Lower(a + b)[i] == (Lower(a) + Lower(b))[i];
  }

  // ---------------------------------------------------------------------------
  // Removing characters.

  /** The set of characters occurring in `s`. */
  function CharSet(s: seq<char>): set<char>
  {
    set c | c in s
  }

  /** No character of `s` belongs to `cs`. */
  predicate Avoids(s: string, cs: set<char>)
  {
    forall c :: c in s ==> c !in cs
  }

  /** `s` without the characters of `cs`, the others kept in order. */
  function Strip(s: string, cs: set<char>): (r: string)
    ensures |r| <= |s|
    ensures forall c :: c in r ==> c in s && c !in cs
  {
    if s == [] then []
    else (if s[0] in cs then [] else [s[0]]) + Strip(s[1..], cs)
  }

  lemma {:induction false} StripAppend(a: string, b: string, cs: set<char>)
    ensures Strip(a + b, cs) == Strip(a, cs) + Strip(b, cs)
  {
    if a == [] {
      assert a + b == b;
    } else {
      assert (a + b)[0] == a[0];
      assert (a + b)[1..] == a[1..] + b;
      StripAppend(a[1..], b, cs);
    }
  }

  /** Removing one set of characters and then another removes their union. */
  lemma {:induction false} StripTwice(s: string, a: set<char>, b: set<char>)
    ensures Strip(Strip(s, a), b) == Strip(s, a + b)
  {
    if s != [] {
      StripTwice(s[1..], a, b);
      var head := if s[0] in a then [] else [s[0]];
      StripAppend(head, Strip(s[1..], a), b);
      assert Strip(head, b) == (if s[0] in a + b then [] else [s[0]]);
    }
  }

  /** `removeCharacters` (wierszokleta.py:60-64): removes every occurrence of
      each character of `characters`, one character at a time. */
  method RemoveCharacters(s: string, characters: seq<char>) returns (result: string)
    ensures result == Strip(s, CharSet(characters))
    ensures forall c :: c in result <==> c in s && c !in characters
  {
    result := s;
    var i := 0;
    assert CharSet(characters[..0]) == {};
    assert Strip(s, {}) == s by { StripNothing(s, {}); }
    while i < |characters|
      invariant 0 <= i <= |characters|
      invariant result == Strip(s, CharSet(characters[..i]))
    {
      // result.replace(characters[i], '')
      StripTwice(s, CharSet(characters[..i]), {characters[i]});
      assert CharSet(characters[..i + 1]) == CharSet(characters[..i]) + {characters[i]} by {
        assert characters[..i + 1] == characters[..i] + [characters[i]];
      }
      result := Strip(result, {characters[i]});
      i := i + 1;
    }
    assert characters[..i] == characters;
    StripKeepsOthers(s, CharSet(characters));
  }

  lemma {:induction false} StripNothing(s: string, cs: set<char>)
    requires Avoids(s, cs)
    ensures Strip(s, cs) == s
  {
    if s != [] {
      StripNothing(s[1..], cs);
    }
  }

  lemma {:induction false} StripKeepsOthers(s: string, cs: set<char>)
    ensures forall c :: c in s && c !in cs ==> c in Strip(s, cs)
  {
    if s != [] {
      StripKeepsOthers(s[1..], cs);
      assert s == [s[0]] + s[1..];
    }
  }

  // ---------------------------------------------------------------------------
  // Splitting.

  /** How many characters of `s` belong to `cs`. */
  function CountIn(s: string, cs: set<char>): nat
  {
    if s == [] then 0 else (if s[0] in cs then 1 else 0) + CountIn(s[1..], cs)
  }

  function Concat(pieces: seq<string>): string
  {
    if pieces == [] then [] else pieces[0] + Concat(pieces[1..])
  }

  /** Regular-expression split on a character class (`re.split('[...]', s)`):
      one piece more than there are separators, empty pieces kept. */
  function SplitOn(s: string, seps: set<char>): (pieces: seq<string>)
    ensures |pieces| == CountIn(s, seps) + 1
  {
    if s == [] then [[]]
    else
      var rest := SplitOn(s[1..], seps);
      if s[0] in seps then [[]] + rest
      else [[s[0]] + rest[0]] + rest[1..]
  }

  /** The pieces hold no separator, and together they are the text with its
      separators removed. */
  lemma {:induction false} SplitOnSpec(s: string, seps: set<char>)
    ensures forall i :: 0 <= i < |SplitOn(s, seps)| ==> Avoids(SplitOn(s, seps)[i], seps)
    ensures Concat(SplitOn(s, seps)) == Strip(s, seps)
  {
    if s != [] {
      var rest := SplitOn(s[1..], seps);
      SplitOnSpec(s[1..], seps);
      assert Concat(rest) == rest[0] + Concat(rest[1..]);
      if s[0] !in seps {
        var pieces := SplitOn(s, seps);
        assert pieces[1..] == rest[1..];
        assert Avoids(rest[0], seps);
        forall c | c in [s[0]] + rest[0] ensures c !in seps {
        }
      }
    }
  }

  /** A separator splits the text into the pieces of each side. */
  lemma {:induction false} SplitOnSeparator(a: string, c: char, b: string, seps: set<char>)
    requires c in seps
    ensures SplitOn(a + [c] + b, seps) == SplitOn(a, seps) + SplitOn(b, seps)
  {
    if a == [] {
      assert a + [c] + b == [c] + b;
      assert ([c] + b)[1..] == b;
    } else {
      assert (a + [c] + b)[1..] == a[1..] + [c] + b;
      SplitOnSeparator(a[1..], c, b, seps);
    }
  }

  /** Text without separators is a single piece. */
  lemma {:induction false} SplitOnNoSeparator(s: string, seps: set<char>)
    requires Avoids(s, seps)
    ensures SplitOn(s, seps) == [s]
  {
    if s != [] {
      assert s[0] in s;
      assert forall c :: c in s[1..] ==> c in s;
      SplitOnNoSeparator(s[1..], seps);
      assert s == [s[0]] + s[1..];
    }
  }

  lemma SplitOnCons(c: char, y: string, seps: set<char>)
    ensures SplitOn([c] + y, seps) ==
      if c in seps then [[]] + SplitOn(y, seps) else [[c] + SplitOn(y, seps)[0]] + SplitOn(y, seps)[1..]
  {
    assert ([c] + y)[0] == c && ([c] + y)[1..] == y;
  }

  /** Appending text without separators extends the last piece. */
  lemma {:induction false} SplitOnAppendPlain(x: string, t: string, seps: set<char>)
    requires Avoids(t, seps)
    ensures var p := SplitOn(x, seps);
      SplitOn(x + t, seps) == p[..|p| - 1] + [p[|p| - 1] + t]
  {
    if x == [] {
      assert x + t == t;
      SplitOnNoSeparator(t, seps);
    } else {
      var c, y := x[0], x[1..];
      assert x == [c] + y && x + t == [c] + (y + t);
      SplitOnAppendPlain(y, t, seps);
      SplitOnCons(c, y, seps);
      SplitOnCons(c, y + t, seps);
      var p, r := SplitOn(y, seps), SplitOn(y + t, seps);
      if c in seps {
        ExtendLastCons([], p, r, t);
      } else {
        ExtendLastMerge(c, p, r, t);
      }
    }
  }

  lemma ExtendLastCons(h: string, p: seq<string>, r: seq<string>, t: string)
    requires |p| > 0 && r == p[..|p| - 1] + [p[|p| - 1] + t]
    ensures [h] + r == ([h] + p)[..|p|] + [([h] + p)[|p|] + t]
  {
    assert ([h] + p)[..|p|] == [h] + p[..|p| - 1];
  }

  lemma ExtendLastMerge(c: char, p: seq<string>, r: seq<string>, t: string)
    requires |p| > 0 && r == p[..|p| - 1] + [p[|p| - 1] + t]
    ensures var q := [[c] + p[0]] + p[1..];
      [[c] + r[0]] + r[1..] == q[..|q| - 1] + [q[|q| - 1] + t]
  {
    var m := |p|;
    if m == 1 {
      assert [c] + (p[0] + t) == ([c] + p[0]) + t;
    } else {
      assert r[0] == p[0] && r[1..] == p[1..m - 1] + [p[m - 1] + t];
      assert ([[c] + p[0]] + p[1..])[..m - 1] == [[c] + p[0]] + p[1..m - 1];
    }
  }

  /** Words without characters of `cs`, joined by a separator outside `cs`,
      hold no character of `cs`. */
  lemma {:induction false} JoinAvoids(words: seq<string>, sep: char, cs: set<char>)
    requires sep !in cs
    requires forall i :: 0 <= i < |words| ==> Avoids(words[i], cs)
    ensures Avoids(Join(words, sep), cs)
  {
    if |words| > 1 {
      JoinAvoids(words[1..], sep, cs);
      assert Avoids(words[0], cs);
    }
  }

  /** The non-empty pieces, in order. */
  function NonEmpty(pieces: seq<string>): (r: seq<Word>)
    ensures forall i :: 0 <= i < |r| ==> r[i] in pieces
    ensures Concat(r) == Concat(pieces)
  {
    if pieces == [] then []
    else if pieces[0] == [] then NonEmpty(pieces[1..])
    else [pieces[0]] + NonEmpty(pieces[1..])
  }

  /** `str.split()` with no argument: the maximal runs of non-whitespace. */
  function SplitWords(s: string): seq<Word>
  {
    NonEmpty(SplitOn(s, Whitespace))
  }

  /** The words hold no whitespace, and together they are the text with its
      whitespace removed. */
  lemma SplitWordsSpec(s: string)
    ensures forall i :: 0 <= i < |SplitWords(s)| ==> Avoids(SplitWords(s)[i], Whitespace)
    ensures Concat(SplitWords(s)) == Strip(s, Whitespace)
  {
    var pieces := SplitOn(s, Whitespace);
    SplitOnSpec(s, Whitespace);
    forall i | 0 <= i < |NonEmpty(pieces)| ensures Avoids(NonEmpty(pieces)[i], Whitespace) {
      var j :| 0 <= j < |pieces| && pieces[j] == NonEmpty(pieces)[i];
    }
  }

  /** The words of each piece, as `str.split()` gives them. */
  function WordLists(pieces: seq<string>): (r: seq<seq<Word>>)
    ensures |r| == |pieces|
  {
    if pieces == [] then [] else WordLists(pieces[..|pieces| - 1]) + [SplitWords(pieces[|pieces| - 1])]
  }

  lemma {:induction false} WordListsSpec(pieces: seq<string>, i: nat)
    requires i < |pieces|
    ensures WordLists(pieces)[i] == SplitWords(pieces[i])
  {
    if i < |pieces| - 1 {
      WordListsSpec(pieces[..|pieces| - 1], i);
    }
  }

  lemma {:induction false} WordListsAppend(a: seq<string>, b: seq<string>)
    ensures WordLists(a + b) == WordLists(a) + WordLists(b)
    decreases |b|
  {
    if b == [] {
      assert a + b == a;
    } else {
      assert (a + b)[..|a + b| - 1] == a + b[..|b| - 1];
      assert (a + b)[|a + b| - 1] == b[|b| - 1];
      WordListsAppend(a, b[..|b| - 1]);
    }
  }

  /** `str.splitlines()`, up to empty lines: each line-boundary character ends a
      line. (Python also reads "\r\n" as one boundary and drops a trailing empty
      line; the two differ only in empty lines.) */
  function SplitLines(s: string): seq<string>
  {
    SplitOn(s, LineBreaks)
  }

  /** `splitIntoSentences` (wierszokleta.py:66-68). */
  function SplitIntoSentences(text: string): (sentences: seq<string>)
    ensures |sentences| == CountIn(text, SentenceSeparatorSet) + 1
  {
    SplitOn(text, SentenceSeparatorSet)
  }

  // ---------------------------------------------------------------------------
  // Joining.

  /** `sep.join(words)`. */
  function Join(words: seq<string>, sep: char): string
  {
    if words == [] then []
    else if |words| == 1 then words[0]
    else words[0] + [sep] + Join(words[1..], sep)
  }

  /** Joining words with a space and splitting at whitespace gives the words back. */
  lemma {:induction false} SplitWordsJoin(words: seq<Word>)
    requires forall i :: 0 <= i < |words| ==> Avoids(words[i], Whitespace)
    ensures SplitWords(Join(words, ' ')) == words
  {
    SplitOnJoin(words);
    NonEmptyWords(words);
  }

  lemma {:induction false} SplitOnJoin(words: seq<Word>)
    requires forall i :: 0 <= i < |words| ==> Avoids(words[i], Whitespace)
    ensures words != [] ==> SplitOn(Join(words, ' '), Whitespace) == words
    ensures words == [] ==> SplitOn(Join(words, ' '), Whitespace) == [[]]
  {
    if |words| == 1 {
      assert Avoids(words[0], Whitespace);
      SplitOnNoSeparator(words[0], Whitespace);
    } else if |words| > 1 {
      var first, rest := words[0], words[1..];
      assert Avoids(first, Whitespace);
      assert forall i :: 0 <= i < |rest| ==> Avoids(rest[i], Whitespace) by {
        forall i | 0 <= i < |rest| ensures Avoids(rest[i], Whitespace) {
          assert rest[i] == words[i + 1];
        }
      }
      SplitOnJoin(rest);
      var tail := Join(rest, ' ');
      assert Join(words, ' ') == first + [' '] + tail;
      SplitOnNoSeparator(first, Whitespace);
      SplitOnSeparator(first, ' ', tail, Whitespace);
      assert words == [first] + rest;
    }
  }

  lemma {:induction false} NonEmptyWords(words: seq<Word>)
    ensures NonEmpty(words) == words
  {
    if words != [] {
      NonEmptyWords(words[1..]);
    }
  }
}
